=== FILE: README.md ===
# LDSW-map: a Dafny model of the map front-end's data core

LDSW-map is a React front-end. It shows the buildings of a campus on a 3D map,
coloured by how far their current energy readings deviate from their
historical statistics. Side panels show the weather, the holiday and the
static data of a selected building. All of its data comes from SPARQL
endpoints. This project models the sequential, data-shaping core of that
front-end as pure Dafny functions, and proves what each one promises:

- `Query` decodes the endpoint address and the binding sets of a SPARQL 1.1
  JSON result into flat rows. Only `uri` and `literal` terms are kept, as
  described in section 3.2.2 of the SPARQL 1.1 Query Results JSON Format.
- `Util` models `leftPad` and the two-digit zero padding built on it.
- `FillColor` covers the fill colour:
  - the statistics table, keyed by canonical building name;
  - the per-utility z-scores with NaN read as 0;
  - `Math.max` of the five scores;
  - the three unclamped d3 linear scales over the breakpoints 0..3;
  - the grey colour for unknown buildings.
- `App` covers the application component:
  - rows shaped into building features, with the Horst Complex floor override
    and elevation;
  - the date text;
  - the dropdown index arithmetic;
  - the state kept across date changes, loads and clicks.
- `Weather` covers the weather panel: the observation subject, the row filter
  and shaping, and the relation labels.
- `Holiday` covers the holiday line: the holiday type, the label, the first-row
  selection, and the weekend / working-day fallback.
- `BuildingPanel` covers the building panel: the building IRI, the static-data
  selection and reset, the heading, and the utility tiles.

Two modules support the rest:

- `Strings` models the JavaScript string operations the core uses. `split(c)[n]`,
  `replace` with a string pattern and with a regex without the `g` flag all
  act on the first occurrence only; the model also covers `repeat`,
  `substring` and `toLowerCase`.
- `Numbers` models JavaScript numbers as `Finite(real) | PosInf | NegInf | NaN`.
  It gives IEEE 754 rules for infinities and NaN, `Math.max`, and `toString`
  on naturals. It also has concrete `parseInt` and `parseFloat`, which follow
  the StrDecimalLiteral grammar of the ECMAScript specification.

What JavaScript does with `undefined` is modelled explicitly:

- a missing row value is `None`;
- in a string context it becomes the text `"undefined"` (`Query.JsString`);
- React renders it as nothing (`Query.ReactText`).

A `TypeError` thrown inside a `.then` callback rejects the promise. The state
that callback would have set then keeps its old value (`Options.Update.Keep`).

The model follows the code as written, including these points:

- A standard deviation of 0 gives an infinite or NaN score, not 0. A reading
  above the average gives +Infinity, which wins the maximum and turns every
  colour channel NaN (`FillColor.ZeroDeviationGivesNaNColour`). A reading
  below it gives -Infinity, which `|| 0` keeps and which loses the maximum to
  any finite contribution (`FillColor.ZeroDeviationBelowAverageLoses`). Neither
  is clamped or excluded.
- The colour channels are not rounded or clamped to 0..255.
- Only the first `_` of a building fragment becomes a space.
- Responses are not ordered, so a stale response can overwrite a fresh one.

## Model

| member | source | states |
|---|---|---|
| Query.Endpoint | src/query.ts:2 | the address starts with `https://ld.sven.mol.it/`, ends with `/sparql`, and holds exactly the dataset name between them |
| Query.EndpointInjective | src/query.ts:2 | different datasets are queried at different addresses |
| Query.DecodeRow | src/query.ts:15-19 | a variable is in the row iff the binding set has it with a term of type `literal` or `uri`, and its value is the term's value unchanged |
| Query.Decode | src/query.ts:13-23 | exactly one row per binding set, in input order, empty rows included |
| Query.DecodeEncode | src/query.ts:16-18 | decoding a binding set of literal terms gives the row back (the decoder loses nothing it keeps) |
| Query.DecodeKeepsOnlyKept | src/query.ts:18 | a variable bound to a term of another type, such as a blank node, is absent from the row, not present with an empty value |
| Util.LeftPad | src/util.ts:1-5 | requires `value` no longer than `length` (a negative `repeat` count throws); the result ends with `value`; has length exactly `length` for a non-empty pad; is `value` for an empty pad or equal lengths; its prefix starts with `pad` and repeats with the pad's length as period, so a one-character pad fills it |
| Util.ZeroPad2 | src/app.tsx:107 | `leftPad(n.toString(), '0', 2)` for n < 100 is two decimal digits whose value is n, and the plain decimal text from 10 on |
| Strings.IndexOf | src/weather.tsx:29 | `indexOf` is -1 exactly when the character is absent, and otherwise the position of its first occurrence |
| Strings.JoinSplit | src/hooks/useFillColor.ts:34 | `split` loses nothing: joining the pieces with the separator gives the string back |
| Strings.Field | src/holiday.tsx:36 | `split(c)[n]` is undefined exactly when there are at most n pieces, and a defined piece never contains the separator |
| Strings.FieldZero | src/holiday.tsx:36 | `split(c)[0]` is the text before the first separator, or the whole string |
| Strings.FieldOne | src/weather.tsx:28 | `split('#')[1]` is the text between the first and the second `#`, or to the end when there is no second one |
| Strings.FieldOneMissing | src/weather.tsx:28 | without the separator, `split(c)[1]` is undefined |
| Strings.FragmentDefined | src/weather.tsx:28 | an IRI has a fragment exactly when it contains `#` |
| Strings.ReplaceFirst | src/hooks/useFillColor.ts:34 | `replace` with a string pattern changes only the first occurrence, keeps the length, and leaves a string without the pattern unchanged |
| Strings.ReplaceFirstRoundTrip | src/panels/building.tsx:28 | replacing the first `from` by `to` and then the first `to` by `from` restores a string that had no `to` |
| Strings.Repeat | src/util.ts:3 | `pad.repeat(n)` is n times as long as `pad`, starts with `pad` and repeats with the pad's length as period |
| Strings.Take | src/util.ts:3 | `substring(0, n)` is the prefix of length n, or the whole string when it is shorter |
| Strings.ToLowerAscii | src/weather.tsx:39 | `toLowerCase` leaves no upper-case letter, moves each upper-case letter down by 32 and keeps every other character |
| Strings.ToLowerIdempotent | src/weather.tsx:39 | lower-casing twice is lower-casing once |
| Strings.ToLowerConcat | src/weather.tsx:39 | lower-casing distributes over concatenation |
| Strings.FirstUpper | src/weather.tsx:39 | the first match of `/([A-Z])/` is the first upper-case letter, and there is none exactly when no character is upper-case |
| Strings.SpaceBeforeFirstUpperAt | src/weather.tsx:39 | `replace(/([A-Z])/, ' $1')` without the `g` flag inserts one space before the first upper-case letter only |
| Strings.SpaceBeforeUpperAt | src/weather.tsx:39 | when no character before position i is upper-case and the one at i is (or i is the end), the space goes in exactly at i (or nothing changes) |
| Numbers.Add | src/hooks/useFillColor.ts:45-49 | addition under IEEE 754: NaN in gives NaN, finite values add exactly, opposite infinities give NaN |
| Numbers.Div | src/hooks/useFillColor.ts:45-49 | division under IEEE 754: NaN in gives NaN, division by a non-zero finite is exact, a non-zero number over zero is an infinity of its sign, and 0/0 is NaN |
| Numbers.Max2 | src/hooks/useFillColor.ts:60-66 | `Math.max` of two numbers is NaN if either is, and otherwise the larger of the two |
| Numbers.MathMax | src/hooks/useFillColor.ts:60-66 | `Math.max(...)` is NaN iff an argument is NaN; otherwise it is at least every argument and equal to one of them; it is -Infinity for no arguments |
| Numbers.NatToString | src/app.tsx:107 | `toString` of a natural is at least one decimal digit, with no leading zero unless the number is 0 |
| Numbers.NatToStringValue | src/app.tsx:107 | reading the decimal text of a number gives the number back |
| Numbers.ValueToString | src/app.tsx:107 | writing the value of a digit string without leading zeros gives the string back |
| Numbers.TrimStart | src/app.tsx:125 | the leading white space `parseInt` and `parseFloat` skip: the result is a suffix that does not start with white space, and every character dropped before it is white space |
| Numbers.TrimStartOfPadded | src/app.tsx:125 | leading white space in front of a text that does not start with white space is removed and nothing more is |
| Numbers.ParseIntOfNat | src/app.tsx:125 | `parseInt` reads back the decimal text of a number followed by anything that is neither a digit nor an `x` |
| Numbers.ParseFloatOfNothing | src/hooks/useFillColor.ts:37-41 | `parseFloat(undefined)` and `parseFloat("")` are NaN |
| Numbers.ParseFloatOfLetter | src/hooks/useFillColor.ts:61-65 | text starting with a letter other than `I` is NaN |
| Numbers.ParseFloatOfDecimal | src/hooks/useFillColor.ts:61-65 | `parseFloat` reads `whole.fraction` and ignores a unit written after it |
| Numbers.ParseFloatOfNat | src/hooks/useFillColor.ts:61-65 | `parseFloat` reads back the decimal text of a number followed by a unit such as ` kWh` |
| FillColor.CanonicalName | src/hooks/useFillColor.ts:34 | a canonical name exists exactly when the IRI has a `#` (otherwise `replace` on `undefined` throws); it has no `#` and the length of the fragment |
| FillColor.CanonicalNameOf | src/hooks/useFillColor.ts:34 | the canonical name of `prefix#local` and of `prefix#local#rest` is `local` with its first `_` made a space |
| FillColor.BuildTableSucceeds | src/hooks/useFillColor.ts:32-53 | the table loads exactly when every row has a building IRI with a fragment |
| FillColor.BuildTableNames | src/hooks/useFillColor.ts:33-51 | the table's keys are exactly the rows' canonical names |
| FillColor.BuildTableLastWins | src/hooks/useFillColor.ts:44-50 | each name holds the statistics parsed from the last row of that name |
| FillColor.BuildTableOfNothing | src/hooks/useFillColor.ts:32 | each load starts from an empty table |
| FillColor.ZScore | src/hooks/useFillColor.ts:45-49 | the score is `(reading - avg) / dev` for finite values and non-zero dev, NaN when any input is NaN, and an infinity (or NaN for reading = avg) when dev is 0 |
| FillColor.OrZero | src/hooks/useFillColor.ts:61-65 | the fallback to 0 after each score turns NaN into 0 and changes nothing else |
| FillColor.Contribution | src/hooks/useFillColor.ts:61-65 | what a utility contributes to the maximum is never NaN |
| FillColor.MagnitudeIsMax | src/hooks/useFillColor.ts:60-66 | the maximum is never NaN and is at least every utility's contribution |
| FillColor.MagnitudeIsAttained | src/hooks/useFillColor.ts:60-66 | the maximum is the contribution of some utility |
| FillColor.Scale | src/hooks/useFillColor.ts:12-14 | a scale gives a finite channel exactly for a finite magnitude |
| FillColor.InterpolateIsLine | src/hooks/useFillColor.ts:12-14 | on the segment of x (the first below 1, the last from 2 on) the scale is the straight line through that segment's breakpoint outputs, so it extrapolates outside 0..3 |
| FillColor.InterpolateAtBreakpoints | src/hooks/useFillColor.ts:12-14 | at 0, 1, 2 and 3 each scale gives exactly its configured output |
| FillColor.ColorFor | src/hooks/useFillColor.ts:56-69 | a building whose name (as an object key) is not in the table is grey (127, 127, 127) |
| FillColor.EmptyTableIsGrey | src/hooks/useFillColor.ts:54 | before the table loads it is empty, so every building is grey |
| FillColor.ColorOfKnownBuilding | src/hooks/useFillColor.ts:58-67 | for a building with statistics the magnitude is never NaN, is at least every utility's contribution and equals one of them; a finite magnitude puts each channel on the straight line of its segment, an infinite one makes every channel NaN |
| FillColor.NoReadingsIsGreen | src/hooks/useFillColor.ts:60-67 | with no readings the maximum is 0 and the colour is (34, 139, 34) |
| FillColor.MagnitudeTwoIsGold | src/hooks/useFillColor.ts:12-14 | a maximum of 2 gives (255, 215, 0) |
| FillColor.ScalesAreNotClamped | src/hooks/useFillColor.ts:12-14 | outside 0..3 the channels leave 0..255: 5 gives green -370, -1 gives red -86; 1.5 gives red 204.5, unrounded |
| FillColor.ZeroDeviationGivesNaNColour | src/hooks/useFillColor.ts:45-67 | a zero deviation with a reading above average makes the maximum +Infinity and every channel NaN |
| FillColor.ZeroDeviationBelowAverageLoses | src/hooks/useFillColor.ts:45-67 | a reading below the average with deviation 0 scores -Infinity, which survives `|| 0`; with some finite contribution and no +Infinity one, the magnitude and every colour channel are finite |
| FillColor.ColdExample | src/hooks/useFillColor.ts:56-69 | cold average 10, deviation 2, reading "14 kWh" and no other reading give the colour (255, 215, 0) |
| App.RowToFeature | src/app.tsx:112-129 | geometry, name and the five readings are copied unchanged; floors is 2 for the Horst Complex and `parseInt` of the floors text otherwise |
| App.Features | src/app.tsx:112-129 | one feature per decoded row, in the same order |
| App.LoadFeatures | src/app.tsx:112-130 | the list is replaced exactly when every row has a geometry (`JSON.parse(undefined)` throws otherwise), and then by the rows' features |
| App.ElevationOfNumeral | src/app.tsx:125 | a building whose floors text is the numeral of n has n floors and elevation 10n |
| App.ElevationOfFloors | src/app.tsx:156 | the elevation is ten times the floor count |
| App.HorstComplexElevation | src/app.tsx:125 | the Horst Complex stands 20 high whatever its data says |
| App.ElevationWithoutFloors | src/app.tsx:156 | a building without floors has NaN elevation |
| App.DateText | src/app.tsx:107 | the date text starts with the `YYYY-MM-DD` day key the panels get |
| App.DecodeDateTextRoundTrip | src/app.tsx:107 | reading the date text back gives the year, month, day and hour it was built from |
| App.DateTextInjective | src/app.tsx:107 | different moments give different date texts |
| App.DateTextLength | src/app.tsx:107 | a four-digit year gives the 20-character `YYYY-MM-DDTHH:00:00Z` and a 10-character day key |
| App.SelectorRoundTrip | src/app.tsx:181-211 | the state an option selects and the index a state highlights are mutual inverses, and exactly the selectable states have an index in range |
| App.YearOptionLabels | src/app.tsx:204-207 | the label of each year option is the year it selects |
| App.InitialSelectors | src/app.tsx:101-105 | the initial day, month, year and hour are selectable and nothing is selected |
| App.Selection | src/app.tsx:161-163 | a click at -1 clears the selection and any other index selects it |
| App.Picked | src/app.tsx:181-211 | a pick sets the value whose highlighted index is the picked index, in range for an offered option, and leaves the other three selector values, the building list and the selection alone; other events change no selector value |
| App.Step | src/app.tsx:109-163 | corrected transition: a pick makes the picked dropdown highlight the picked index and keeps the other selector values; a date change empties the list and clears the selection, a load replaces the list and clears the selection, a failing load keeps everything, a click selects the clicked index or clears at -1 |
| App.DateChangeShowsLoading | src/app.tsx:110 | changing the moment shows the loading text, with or without the correction |
| App.PanelOf | src/app.tsx:249-255 | the side panel prompts exactly when nothing is selected and shows the selected building exactly when the index is in range |
| App.StaleSelectionFails | src/app.tsx:249-254 | as written, a selection made before a date change survives the emptied list, and the panel fails to render |
| App.StaleSelectionExample | src/app.tsx:249-254 | selecting the only building and then picking day 2 makes the panel fail |
| App.StepKeepsSelectionValid | src/app.tsx:161-163 | corrected, every step keeps the selection inside the building list |
| App.ValidSelectionRenders | src/app.tsx:249-255 | a selection inside the list never fails to render |
| App.RunKeepsSelectionValid | src/app.tsx:109-163 | corrected, every run of events the picking library can produce keeps the selection valid |
| Weather.HourKeyIsZeroPad | src/weather.tsx:16 | on the text of an hour, the one-character padding gives the same two digits as the date text's hour |
| Weather.Subject | src/weather.tsx:16 | corrected subject: the date, `-`, and the hour as two digits; three characters longer than the date |
| Weather.SubjectAsWrittenIsUnpadded | src/app.tsx:246 | as written (the hour is passed as a number), an hour below 10 goes in as one digit and misses the intended subject |
| Weather.SubjectExample | src/weather.tsx:16 | hour 5 gives `2023-01-01-5` as written and `2023-01-01-05` as intended |
| Weather.SubjectAsWrittenFromTen | src/weather.tsx:16 | from hour 10 on, the written and the intended subject agree |
| Weather.SubjectInjective | src/weather.tsx:16 | with padding, different hours of a day give different subjects |
| Weather.Keeps | src/weather.tsx:26 | a row is kept iff `rendered` is non-empty and `relation` starts with `http://ld.sven.mol.it/`; the test throws iff `rendered` is non-empty and `relation` is missing |
| Weather.FilterRows | src/weather.tsx:26 | the filter throws iff some row's test throws; otherwise the result is a subsequence of the rows, every kept row passes and every passing row is kept |
| Weather.FilterRowsCount | src/weather.tsx:26 | the result has one row per passing position, repeated rows included, so with the subsequence clause it is exactly the passing rows in order |
| Weather.Shape | src/weather.tsx:27-30 | the relation becomes its fragment, defined iff it has a `#`; `rendered` becomes its fragment when it has a `#` and is otherwise unchanged |
| Weather.Process | src/weather.tsx:25-31 | the panel keeps its old rows iff the filter throws; otherwise one observation per filtered row, in order, each the shaping of that row's relation and rendered value, none with a `#` in `rendered` |
| Weather.Receive | src/weather.tsx:25 | a response replaces the rows, unless its callback throws |
| Weather.Label | src/weather.tsx:39 | the label has no upper-case letter and is one character longer than the relation exactly when the relation has one |
| Weather.LabelSplitsAtFirstUpper | src/weather.tsx:39 | the label is the lower-cased relation with one space before the position of its first upper-case letter |
| Weather.LabelOfLowerCase | src/weather.tsx:39 | a relation without upper-case letters is its own label |
| Weather.LabelIdempotent | src/weather.tsx:39 | labelling a label changes nothing |
| Weather.ViewOf | src/weather.tsx:34-44 | `Loading` exactly before data; a render failure exactly when a row has no relation; otherwise one line per row with its label and value |
| Weather.ShownRowsHaveFragments | src/weather.tsx:25-44 | when every relation has a fragment, the first response is shown as a table |
| Holiday.HolidayType | src/holiday.tsx:36 | a type exists exactly when the IRI has a `#`, and contains neither `#` nor `-` |
| Holiday.HolidayTypeOf | src/holiday.tsx:36 | the type of `prefix#name-rest` is `name` for any `rest`, a second `#` in it included, and so is the type of `prefix#name` |
| Holiday.DatePart | src/holiday.tsx:38 | `d/m` with the month shown one-based; an invalid date shows `NaN/NaN` |
| Holiday.Label | src/holiday.tsx:38 | the label starts with `type (`, ends with `)`, and between them holds the start part, a spaced dash and the end part |
| Holiday.DatePartReadBack | src/holiday.tsx:38 | the text before the slash parses back to the day of the month and the text after it to the month counted from 1 |
| Holiday.LabelExample | src/holiday.tsx:38 | a Christmas holiday from 23 December to 8 January reads `Christmas (23/12 - 8/1)` |
| Holiday.HolidayOfRows | src/holiday.tsx:28-40 | no rows clear the holiday; otherwise the callback throws iff the first row's holiday is missing or has no `#`; when the callback does not throw on a first row, it sets a label, which starts with the type of the first row's holiday, ends with `)` and holds, between the parentheses, the date parts of that row's `start` and `end` (a missing one is an invalid date) joined by a spaced dash |
| Holiday.FirstRowOnly | src/holiday.tsx:32 | only the first row counts |
| Holiday.Display | src/holiday.tsx:45-47 | the holiday when it is a non-empty text, else `Weekend` on a weekend, else `Working day` |
| Holiday.HolidayWins | src/holiday.tsx:45-47 | a holiday that is set is always shown and never reads as either fallback text |
| Holiday.NoHolidayFallback | src/holiday.tsx:11 | without a holiday the text is `Weekend` exactly for day-of-week 0 or 6 |
| BuildingPanel.LocalName | src/panels/building.tsx:28 | only the first space becomes `_`, the length is kept, and no `#` appears |
| BuildingPanel.SubjectRoundTrip | src/panels/building.tsx:28 | the canonical name of the building IRI built from a display name without `_` or `#` is that name, so the panel and the colour table agree |
| BuildingPanel.OnlyFirstSpace | src/panels/building.tsx:28 | `a b c` becomes `a_b c` |
| BuildingPanel.SelectStatic | src/panels/building.tsx:32 | no rows give no static data, otherwise the first row |
| BuildingPanel.NameChanged | src/panels/building.tsx:20-33 | a new name clears the static data; the same name changes nothing |
| BuildingPanel.StaticLoaded | src/panels/building.tsx:32 | a response sets the static data to its first row and keeps the name |
| BuildingPanel.Heading | src/panels/building.tsx:36-39 | the heading is the bare name without static data, and `name (abbreviation)` with it, a missing abbreviation printing as `undefined` |
| BuildingPanel.NewNameHasNoAbbreviation | src/panels/building.tsx:21 | right after the name changes, the heading is the bare name |
| BuildingPanel.AbbreviationShown | src/panels/building.tsx:38 | an abbreviation that arrives is shown in parentheses after the name |
| BuildingPanel.TilesOfMembers | src/panels/building.tsx:43-72 | a tile is shown exactly for each utility with a non-empty reading, and carries that reading |
| BuildingPanel.Tiles | src/panels/building.tsx:42-73 | at most five tiles, and a utility has one exactly when its reading is non-empty |
| BuildingPanel.TilesInOrder | src/panels/building.tsx:42-73 | the tiles keep the order cold, electricity, gas, heat, water |
| BuildingPanel.AllReadingsAllTiles | src/panels/building.tsx:42-73 | with every reading non-empty, every utility gets its tile, in order |
| BuildingPanel.NoReadingsNoTiles | src/panels/building.tsx:42-73 | with no reading non-empty there are no tiles |
| BuildingPanel.TilesExtremes | src/panels/building.tsx:42-73 | a building without readings shows no tiles; one with all five shows all five in order |

## Left out

- Network and JSON envelope: `fetch`, `rq.json()` and the `results.bindings`
  destructuring are I/O. The model starts from the binding sets.
- React and map rendering: hooks, effects, the async memo, DeckGL, maplibre,
  lights and layers. The component state is modelled as a transition function
  (`App.Step`) over events instead.
- The dropdown widget, the lighting and layer configuration, the cookie hooks
  and the superseded prototype component: none of them is part of the data
  core.
- `Date` semantics: time zones, `toISOString`, `getDate`, `getMonth` and
  `getDay` are inputs. `Holiday.Calendar` says what `new Date(text)` gives,
  and the weekend test takes the day of the week.
- Geometry: `JSON.parse` is modelled only by its failure on a missing
  geometry. Malformed geometry text, which also throws, is not modelled.
- IEEE 754 rounding, overflow, underflow and the sign of zero: finite
  numbers are exact reals, so `-0 || 0` and `0 || 0` are both the one zero
  of the model, and `ParseFloat` of a text such as `"1e400"` gives that
  exact value where JavaScript gives Infinity (and 0 for `"1e-400"`).
- `toLowerCase` is modelled on ASCII letters only; other letters are left
  as they are.
- String lengths and positions count characters (Unicode scalar values),
  while JavaScript's `length`, `indexOf`, `substring` and `padStart` count
  UTF-16 code units. Texts outside the Basic Multilingual Plane measure
  differently.
- `name in buildings` on an object also finds inherited keys such as
  `constructor`. The model treats the table as a plain map.
- A failed statistics load: the async memo's reaction to a rejected promise
  is not part of the model. The table is modelled as `None` then.
- The address line of the building panel is plain rendering of two
  static-data fields.
- Request ordering: the code has no guard against stale responses, so there
  is no ordering property to state. A late response simply applies
  (`Weather.Receive`, `BuildingPanel.StaticLoaded`).
- The day and hour option labels are fixed text. Only the year labels are
  related to their values (`App.YearOptionLabels`).
- FillColor.StatsOf: it has no contract of its own. What it files is stated
  through `FillColor.BuildTableLastWins`.
- BuildingPanel.TilesOf: its own contract only bounds the number of tiles.
  Which tiles appear is stated by `BuildingPanel.TilesOfMembers`.

## Findings

| source | as written | input that shows it | evidently intended | confidence | as-written member | corrected member |
|---|---|---|---|---|---|---|
| src/weather.tsx:16 | the hour reaches the padding as a number (src/app.tsx:246), whose `length` is undefined, so it is never padded | hour 5 on 2023-01-01 queries `knmi:2023-01-01-5` | `knmi:2023-01-01-05`, the two-digit hour the padding is written for | not executed | Weather.SubjectAsWritten | Weather.Subject |
| src/app.tsx:249-254 | the selected index survives the emptied building list after a date change, so `buildings[selectedBuilding]` is undefined and the panel throws while rendering | select building 0, then pick another day | the selection cleared whenever the list is replaced | not executed | App.StepAsWritten | App.Step |

=== FILE: app.dfy ===
/** The application component (src/app.tsx): decoded building rows shaped into
    map features, the date and hour keys built from the four selectors, the
    selector index arithmetic, and the state the component keeps across date
    changes, loads and clicks. */
module App {
  import opened Options
  import opened Strings
  import opened Numbers
  import opened Util
  import opened Query
  import opened Types

  // ---------------------------------------------------------------------
  // Features

  /** The building whose floor count is pinned regardless of the data. */
  const HorstComplex := "Horst Complex"

  /** One decoded row of the buildings query as a feature: the name and the
      five readings copied, the floor count pinned to 2 for the Horst Complex
      and otherwise `parseInt` of the `floors` text. */
  function RowToFeature(row: Row): (b: Building)
    ensures b.geometry == Get(row, "geometry")
    ensures b.properties.name == Get(row, "name")
    ensures forall u: Utility :: b.properties.Reading(u) == Get(row, u.Name())
    ensures Get(row, "name") == Some(HorstComplex) ==> b.properties.floors == Some(2)
    ensures Get(row, "name") != Some(HorstComplex) ==>
      b.properties.floors == ParseInt(JsString(Get(row, "floors")))
  {
    var name := Get(row, "name");
    var floors := if name == Some(HorstComplex) then Some(2) else ParseInt(JsString(Get(row, "floors")));
    var p := Properties(name, floors, Get(row, "cold"), Get(row, "electricity"), Get(row, "gas"),
                        Get(row, "heat"), Get(row, "water"));
    ReadingsFromRow(row, p);
    Building(Get(row, "geometry"), p)
  }

  /** Properties whose fields are the row's readings read each utility
      under its name. */
  lemma ReadingsFromRow(row: Row, p: Properties)
    requires p.cold == Get(row, "cold") && p.electricity == Get(row, "electricity")
    requires p.gas == Get(row, "gas") && p.heat == Get(row, "heat") && p.water == Get(row, "water")
    ensures forall u: Utility :: p.Reading(u) == Get(row, u.Name())
  {
    forall u: Utility ensures p.Reading(u) == Get(row, u.Name()) {
      match u
      case Cold => assert u.Name() == "cold";
      case Electricity => assert u.Name() == "electricity";
      case Gas => assert u.Name() == "gas";
      case Heat => assert u.Name() == "heat";
      case Water => assert u.Name() == "water";
    }
  }

  /** The decoded rows as features, one per row, in order. */
  function Features(rows: seq<Row>): (bs: seq<Building>)
    ensures |bs| == |rows|
    ensures forall i :: 0 <= i < |rows| ==> bs[i] == RowToFeature(rows[i])
  {
    seq(|rows|, i requires 0 <= i < |rows| => RowToFeature(rows[i]))
  }

  /** What the `.then` callback makes of the rows: `JSON.parse(undefined)`
      throws on a row without geometry, and then the list keeps what it had. */
  function LoadFeatures(rows: seq<Row>): (u: Update<seq<Building>>)
    ensures u.Set? <==> forall i :: 0 <= i < |rows| ==> "geometry" in rows[i]
    ensures u.Set? ==> u.value == Features(rows)
  {
    if forall i :: 0 <= i < |rows| ==> "geometry" in rows[i] then Set(Features(rows)) else Keep
  }

  /** Ten metres per floor; a floor count that is NaN (`None`) leaves the
      elevation NaN. */
  function Elevation(b: Building): Option<int> {
    match b.properties.floors
    case None => None
    case Some(f) => Some(f * 10)
  }

  /** A building whose `floors` text is the decimal numeral of `n`, possibly
      followed by text that is not a digit, stands `10 * n` high. */
  lemma ElevationOfNumeral(row: Row, n: nat, rest: string)
    requires Get(row, "name") != Some(HorstComplex)
    requires |rest| > 0 ==> !IsDecimalDigit(rest[0]) && rest[0] != 'x' && rest[0] != 'X'
    requires Get(row, "floors") == Some(NatToString(n) + rest)
    ensures RowToFeature(row).properties.floors == Some(n)
    ensures Elevation(RowToFeature(row)) == Some(10 * n)
  {
    var b := RowToFeature(row);
    assert b.properties.floors == Some(n) by {
      var text := NatToString(n) + rest;
      assert JsString(Get(row, "floors")) == text;
      ParseIntOfNat(n, rest);
    }
    ElevationOfFloors(b, n);
  }

  lemma ElevationOfFloors(b: Building, n: int)
    requires b.properties.floors == Some(n)
    ensures Elevation(b) == Some(10 * n)
  {
  }

  /** The Horst Complex stands 20 high, whatever its `floors` says. */
  lemma HorstComplexElevation(row: Row)
    requires Get(row, "name") == Some(HorstComplex)
    ensures Elevation(RowToFeature(row)) == Some(20)
  {
  }

  /** A building without a `floors` value has no elevation (NaN). */
  lemma ElevationWithoutFloors(row: Row)
    requires Get(row, "name") != Some(HorstComplex) && "floors" !in row
    ensures Elevation(RowToFeature(row)) == None
  {
    assert JsString(Get(row, "floors")) == "undefined";
    assert !IsDecimalDigit('u') && !IsJsWhiteSpace('u');
  }

  // ---------------------------------------------------------------------
  // Date keys

  /** The year, the two-digit month and the two-digit day joined by dashes:
      the date the holiday and weather panels get. A
      month or day of three or more digits makes `leftPad` throw. */
  function DayKey(year: nat, month: nat, day: nat): string
    requires month < 100 && day < 100
  {
    NatToString(year) + "-" + ZeroPad2(month) + "-" + ZeroPad2(day)
  }

  /** The day key, a `T`, the two-digit hour and `:00:00Z`: the text the
      selected moment is parsed from. */
  function DateText(year: nat, month: nat, day: nat, hour: nat): (t: string)
    requires month < 100 && day < 100 && hour < 100
    ensures StartsWith(t, DayKey(year, month, day))
  {
    var k := DayKey(year, month, day);
    StartsWithExtended(k, k, "T");
    StartsWithExtended(k + "T", k, ZeroPad2(hour));
    StartsWithExtended(k + "T" + ZeroPad2(hour), k, ":00:00Z");
    k + "T" + ZeroPad2(hour) + ":00:00Z"
  }

  predicate AllDecimal(s: string) {
    forall i :: 0 <= i < |s| ==> IsDecimalDigit(s[i])
  }

  /** Reading a date text back: the year is everything before the fixed
      16-character tail `-MM-DDTHH:00:00Z`. */
  function DecodeDateText(t: string): Option<(nat, nat, nat, nat)> {
    if |t| < 17 then None else DecodeAt(t, |t| - 16)
  }

  /** Decoding with the year ending at `n`. */
  function DecodeAt(t: string, n: nat): Option<(nat, nat, nat, nat)>
    requires n + 16 == |t|
  {
      var year := t[..n];
      var month := t[n + 1..n + 3];
      var day := t[n + 4..n + 6];
      var hour := t[n + 7..n + 9];
      if t[n] == '-' && t[n + 3] == '-' && t[n + 6] == 'T' && t[n + 9..] == ":00:00Z"
         && AllDecimal(year) && AllDecimal(month) && AllDecimal(day) && AllDecimal(hour)
      then Some((DigitsValue(year, 10), DigitsValue(month, 10), DigitsValue(day, 10), DigitsValue(hour, 10)))
      else None
  }

  /** The pieces of `y-mm-ddThh:00:00Z` sit at fixed offsets from the end. */
  lemma DateTextPieces(t: string, y: string, mm: string, dd: string, hh: string)
    requires |mm| == 2 && |dd| == 2 && |hh| == 2
    requires t == y + "-" + mm + "-" + dd + "T" + hh + ":00:00Z"
    ensures var n := |y|;
      |t| == n + 16 && t[..n] == y && t[n] == '-' && t[n + 1..n + 3] == mm && t[n + 3] == '-'
      && t[n + 4..n + 6] == dd && t[n + 6] == 'T' && t[n + 7..n + 9] == hh && t[n + 9..] == ":00:00Z"
  {
    var n := |y|;
    assert t[..n] == y;
    assert t[n + 1..n + 3] == mm;
    assert t[n + 4..n + 6] == dd;
    assert t[n + 7..n + 9] == hh;
    assert t[n + 9..] == ":00:00Z";
  }

  /** Decoding reads the value of each piece. */
  lemma DecodePieces(y: string, mm: string, dd: string, hh: string)
    requires |y| >= 1 && |mm| == 2 && |dd| == 2 && |hh| == 2
    requires AllDecimal(y) && AllDecimal(mm) && AllDecimal(dd) && AllDecimal(hh)
    ensures DecodeDateText(y + "-" + mm + "-" + dd + "T" + hh + ":00:00Z")
      == Some((DigitsValue(y, 10), DigitsValue(mm, 10), DigitsValue(dd, 10), DigitsValue(hh, 10)))
  {
    var t := y + "-" + mm + "-" + dd + "T" + hh + ":00:00Z";
    assert |t| == |y| + 16;
    assert DecodeAt(t, |y|)
      == Some((DigitsValue(y, 10), DigitsValue(mm, 10), DigitsValue(dd, 10), DigitsValue(hh, 10))) by {
      DateTextPieces(t, y, mm, dd, hh);
      DecodeAtPieces(t, |y|, y, mm, dd, hh);
    }
    DecodeDateTextAt(t, |y|);
  }

  /** A text of 17 or more characters is decoded with the year ending 16
      characters before its end. */
  lemma DecodeDateTextAt(t: string, n: nat)
    requires n >= 1 && n + 16 == |t|
    ensures DecodeDateText(t) == DecodeAt(t, n)
  {
  }

  lemma DecodeAtPieces(t: string, n: nat, y: string, mm: string, dd: string, hh: string)
    requires n + 16 == |t|
    requires t[..n] == y && t[n + 1..n + 3] == mm && t[n + 4..n + 6] == dd && t[n + 7..n + 9] == hh
    requires t[n] == '-' && t[n + 3] == '-' && t[n + 6] == 'T' && t[n + 9..] == ":00:00Z"
    requires AllDecimal(y) && AllDecimal(mm) && AllDecimal(dd) && AllDecimal(hh)
    ensures DecodeAt(t, n) == Some((DigitsValue(y, 10), DigitsValue(mm, 10), DigitsValue(dd, 10), DigitsValue(hh, 10)))
  {
  }

  /** The date text determines the year, month, day and hour it was built from. */
  lemma DecodeDateTextRoundTrip(year: nat, month: nat, day: nat, hour: nat)
    requires month < 100 && day < 100 && hour < 100
    ensures DecodeDateText(DateText(year, month, day, hour)) == Some((year, month, day, hour))
  {
    var y, mm, dd, hh := NatToString(year), ZeroPad2(month), ZeroPad2(day), ZeroPad2(hour);
    var t := DateText(year, month, day, hour);
    assert t == y + "-" + mm + "-" + dd + "T" + hh + ":00:00Z" by {
      assert DayKey(year, month, day) == y + "-" + mm + "-" + dd;
    }
    assert AllDecimal(y) && |y| >= 1;
    assert DecodeDateText(t) == Some((DigitsValue(y, 10), DigitsValue(mm, 10), DigitsValue(dd, 10), DigitsValue(hh, 10))) by {
      DecodePieces(y, mm, dd, hh);
    }
    assert DigitsValue(y, 10) == year by {
      NatToStringValue(year);
    }
  }

  /** Different moments are queried under different date texts. */
  lemma DateTextInjective(y1: nat, m1: nat, d1: nat, h1: nat, y2: nat, m2: nat, d2: nat, h2: nat)
    requires m1 < 100 && d1 < 100 && h1 < 100 && m2 < 100 && d2 < 100 && h2 < 100
    requires DateText(y1, m1, d1, h1) == DateText(y2, m2, d2, h2)
    ensures y1 == y2 && m1 == m2 && d1 == d2 && h1 == h2
  {
    DecodeDateTextRoundTrip(y1, m1, d1, h1);
    DecodeDateTextRoundTrip(y2, m2, d2, h2);
  }

  /** A four-digit year gives the 20-character text `YYYY-MM-DDTHH:00:00Z`. */
  lemma DateTextLength(year: nat, month: nat, day: nat, hour: nat)
    requires 1000 <= year <= 9999 && month < 100 && day < 100 && hour < 100
    ensures |DateText(year, month, day, hour)| == 20
    ensures |DayKey(year, month, day)| == 10
  {
    FourDigits(year);
  }

  // ---------------------------------------------------------------------
  // Selectors

  /** A dropdown: `count` options, and the state value shown at index `i` is
      `i + offset`. */
  datatype Selector = Selector(count: nat, offset: int) {

    /** `setValue(i)`: the state the option at index `i` selects; the
        handler shifts any index it is given. */
    function StateAt(i: nat): (v: int)
      ensures i < count <==> offset <= v < offset + count
    {
      i + offset
    }

    /** `value`: the index the dropdown highlights for state `v`. */
    function IndexFor(v: int): int {
      v - offset
    }

    /** The states the dropdown can select. */
    predicate Selectable(v: int) {
      offset <= v < offset + count
    }
  }

  const DaySelector := Selector(31, 1)
  const MonthSelector := Selector(12, 1)
  const YearSelector := Selector(3, 2021)
  const HourSelector := Selector(24, 0)

  /** Choosing an option and reading the highlighted index back are mutual
      inverses, and exactly the selectable states have an index in range. */
  lemma SelectorRoundTrip(sel: Selector, i: nat, v: int)
    requires i < sel.count
    ensures sel.IndexFor(sel.StateAt(i)) == i
    ensures sel.Selectable(v) ==> sel.StateAt(sel.IndexFor(v) as nat) == v
    ensures sel.Selectable(v) <==> 0 <= sel.IndexFor(v) < sel.count
  {
  }

  /** The year options. */
  const YearOptions: seq<string> := ["2021", "2022", "2023"]

  /** The value of a four-digit string, digit by digit. */
  lemma FourDigitValue(s: string)
    requires |s| == 4
    ensures DigitsValue(s, 10) ==
      ((DigitValue(s[0]) * 10 + DigitValue(s[1])) * 10 + DigitValue(s[2])) * 10 + DigitValue(s[3])
  {
    assert DigitsValue(s, 10) == DigitsValue(s[..3], 10) * 10 + DigitValue(s[3]);
    assert DigitsValue(s[..3], 10) == DigitsValue(s[..2], 10) * 10 + DigitValue(s[2]) by {
      assert s[..3][..2] == s[..2];
    }
    assert DigitsValue(s[..2], 10) == DigitsValue(s[..1], 10) * 10 + DigitValue(s[1]) by {
      assert s[..2][..1] == s[..1];
    }
    assert DigitsValue(s[..1], 10) == DigitValue(s[0]) by {
      assert s[..1][..0] == [];
    }
  }

  /** The label of each year option is the year it selects. */
  lemma YearOptionLabels(i: nat)
    requires i < 3
    ensures |YearOptions| == YearSelector.count
    ensures YearOptions[i] == NatToString(YearSelector.StateAt(i))
  {
    var y := YearOptions[i];
    assert |y| == 4 && y[0] == '2' && y[1] == '0' && y[2] == '2';
    assert y[3] == "123"[i];
    assert AllDecimal(y) && y[0] != '0';
    assert DigitsValue(y, 10) == 2021 + i by {
      FourDigitValue(y);
    }
    assert NatToString(DigitsValue(y, 10)) == y by {
      ValueToString(y);
    }
  }

  // ---------------------------------------------------------------------
  // Component state

  /** The state the component keeps: the building list, the selected index,
      and the four selector values. */
  datatype AppState = AppState(
    buildings: seq<Building>,
    selected: Option<int>,
    day: int,
    month: int,
    year: int,
    hour: int)
  {
    /** The selected moment, as the memo's dependency list sees it. */
    function Moment(): (int, int, int, int) {
      (year, month, day, hour)
    }
  }

  const Initial := AppState([], None, 1, 1, 2023, 12)

  /** What happens to the component. */
  datatype Event =
    | PickDay(i: nat)
    | PickMonth(i: nat)
    | PickYear(i: nat)
    | PickHour(i: nat)
    | Loaded(rows: seq<Row>)
    | Clicked(index: int)

  /** The click handler: the picking library reports -1 when no building was
      hit, which clears the selection. */
  function Selection(index: int): (sel: Option<int>)
    ensures sel.None? <==> index == -1
    ensures sel.Some? ==> sel.value == index
  {
    if index == -1 then None else Some(index)
  }

  /** After event `e` took `s` to `t`, the dropdown that was picked
      highlights the picked index and the other three keep their values; an
      event that is not a pick leaves all four values alone. */
  predicate PickShown(s: AppState, e: Event, t: AppState) {
    match e
    case PickDay(i) =>
      DaySelector.IndexFor(t.day) == i && (t.month, t.year, t.hour) == (s.month, s.year, s.hour)
    case PickMonth(i) =>
      MonthSelector.IndexFor(t.month) == i && (t.day, t.year, t.hour) == (s.day, s.year, s.hour)
    case PickYear(i) =>
      YearSelector.IndexFor(t.year) == i && (t.day, t.month, t.hour) == (s.day, s.month, s.hour)
    case PickHour(i) =>
      HourSelector.IndexFor(t.hour) == i && (t.day, t.month, t.year) == (s.day, s.month, s.year)
    case _ => t.Moment() == s.Moment()
  }

  /** The selector values after a pick; any other event leaves them alone. */
  function Picked(s: AppState, e: Event): (t: AppState)
    ensures PickShown(s, e, t)
    ensures t.buildings == s.buildings && t.selected == s.selected
    ensures e.PickDay? && e.i < DaySelector.count ==> DaySelector.Selectable(t.day)
    ensures e.PickMonth? && e.i < MonthSelector.count ==> MonthSelector.Selectable(t.month)
    ensures e.PickYear? && e.i < YearSelector.count ==> YearSelector.Selectable(t.year)
    ensures e.PickHour? && e.i < HourSelector.count ==> HourSelector.Selectable(t.hour)
  {
    match e
    case PickDay(i) => s.(day := DaySelector.StateAt(i))
    case PickMonth(i) => s.(month := MonthSelector.StateAt(i))
    case PickYear(i) => s.(year := YearSelector.StateAt(i))
    case PickHour(i) => s.(hour := HourSelector.StateAt(i))
    case _ => s
  }

  /** The component as written: a pick that changes the moment makes a new
      `Date`, and the effect on it empties the building list; a pick of the
      value already set changes nothing. The selection is left alone. */
  function StepAsWritten(s: AppState, e: Event): AppState {
    match e
    case Loaded(rows) => s.(buildings := LoadFeatures(rows).Apply(s.buildings))
    case Clicked(index) => s.(selected := Selection(index))
    case _ =>
      var t := Picked(s, e);
      if t.Moment() == s.Moment() then t else t.(buildings := [])
  }

  /** The component with the selection cleared whenever the building list is
      replaced, so that an index never outlives the list it indexes. */
  function Step(s: AppState, e: Event): (t: AppState)
    ensures PickShown(s, e, t)
    ensures e.Clicked? ==> t.selected == Selection(e.index) && t.buildings == s.buildings
    ensures !e.Clicked? && !e.Loaded? && t.Moment() != s.Moment() ==> t.buildings == [] && t.selected == None
    ensures e.Loaded? && LoadFeatures(e.rows).Set? ==> t.buildings == Features(e.rows) && t.selected == None
    ensures e.Loaded? && LoadFeatures(e.rows).Keep? ==> t == s
    ensures !e.Clicked? && !e.Loaded? && t.Moment() == s.Moment() ==> t == s
  {
    match e
    case Loaded(rows) =>
      (match LoadFeatures(rows)
       case Set(bs) => s.(buildings := bs, selected := None)
       case Keep => s)
    case Clicked(index) => s.(selected := Selection(index))
    case _ =>
      var t := Picked(s, e);
      if t.Moment() == s.Moment() then t else t.(buildings := [], selected := None)
  }

  /** The loading text is shown exactly while the building list is empty. */
  predicate LoadingShown(s: AppState) {
    |s.buildings| == 0
  }

  /** Changing the moment shows the loading text, in both versions. */
  lemma DateChangeShowsLoading(s: AppState, e: Event)
    requires !e.Clicked? && !e.Loaded?
    requires Picked(s, e).Moment() != s.Moment()
    ensures LoadingShown(Step(s, e)) && LoadingShown(StepAsWritten(s, e))
  {
  }

  /** What the side panel shows below the selectors. */
  datatype Panel = Prompt | Details(building: Building) | RenderError

  /** The prompt when nothing is selected, otherwise the panel of the
      selected building; an index outside the list gives `undefined`, and reading its
      `properties` throws while rendering. */
  function PanelOf(s: AppState): (p: Panel)
    ensures p.Prompt? <==> s.selected.None?
    ensures p.Details? <==> s.selected.Some? && 0 <= s.selected.value < |s.buildings|
    ensures p.Details? ==> p.building == s.buildings[s.selected.value]
  {
    match s.selected
    case None => Prompt
    case Some(i) => if 0 <= i < |s.buildings| then Details(s.buildings[i]) else RenderError
  }

  /** The selection indexes the building list, or there is none. */
  predicate SelectionValid(s: AppState) {
    s.selected.None? || 0 <= s.selected.value < |s.buildings|
  }

  /** The picking library reports -1 or an index into the layer's data, which
      is the current building list. */
  predicate Pickable(s: AppState, e: Event) {
    e.Clicked? ==> e.index == -1 || 0 <= e.index < |s.buildings|
  }

  /** As written: a building selected before a change of moment stays selected
      while the list is emptied, and the panel then fails to render. */
  lemma StaleSelectionFails(s: AppState, e: Event)
    requires s.selected.Some?
    requires !e.Clicked? && !e.Loaded?
    requires Picked(s, e).Moment() != s.Moment()
    ensures PanelOf(StepAsWritten(s, e)) == RenderError
  {
  }

  /** The concrete case: select the only building, then pick day 2. */
  lemma StaleSelectionExample(b: Building)
    ensures var s := StepAsWritten(StepAsWritten(Initial.(buildings := [b]), Clicked(0)), PickDay(1));
      PanelOf(s) == RenderError
  {
  }

  /** Corrected: every step keeps the selection valid. */
  lemma StepKeepsSelectionValid(s: AppState, e: Event)
    requires SelectionValid(s) && Pickable(s, e)
    ensures SelectionValid(Step(s, e))
  {
  }

  /** Corrected: a valid selection never fails to render. */
  lemma ValidSelectionRenders(s: AppState)
    requires SelectionValid(s)
    ensures !PanelOf(s).RenderError?
  {
  }

  /** Corrected: the initial state is valid, and so is every state reached by
      events the picking library can produce. */
  lemma {:induction false} RunKeepsSelectionValid(s: AppState, es: seq<Event>)
    requires SelectionValid(s)
    ensures SelectionValid(Run(s, es)) || !AllPickable(s, es)
    decreases |es|
  {
    if |es| > 0 && Pickable(s, es[0]) {
      StepKeepsSelectionValid(s, es[0]);
      RunKeepsSelectionValid(Step(s, es[0]), es[1..]);
    }
  }

  /** The state after a sequence of events. */
  function Run(s: AppState, es: seq<Event>): AppState
    decreases |es|
  {
    if |es| == 0 then s else Run(Step(s, es[0]), es[1..])
  }

  /** Every event of the sequence is one the picking library can produce in
      the state it arrives in. */
  predicate AllPickable(s: AppState, es: seq<Event>)
    decreases |es|
  {
    |es| == 0 || (Pickable(s, es[0]) && AllPickable(Step(s, es[0]), es[1..]))
  }

  /** The initial state has no selection, and its four selector values are
      ones the dropdowns can select. */
  lemma InitialSelectors()
    ensures SelectionValid(Initial)
    ensures DaySelector.Selectable(Initial.day) && MonthSelector.Selectable(Initial.month)
    ensures YearSelector.Selectable(Initial.year) && HourSelector.Selectable(Initial.hour)
  {
  }
}

=== FILE: building_panel.dfy ===
/** The building panel (src/panels/building.tsx): the IRI the static data of
    the selected building is looked up under, the selection of that data,
    the heading, and the tiles of the readings. */
module BuildingPanel {
  import opened Options
  import opened Strings
  import opened Seqs
  import opened Query
  import opened Types
  import opened FillColor

  /** The namespace of the `buildings:` prefix. */
  const BuildingsNamespace := "http://ld.sven.mol.it/buildings#"

  /** The local name of a building: only the first space of its name becomes
      `_`. */
  function LocalName(name: string): (l: string)
    ensures |l| == |name|
    ensures ' ' !in name ==> l == name
    ensures ' ' in name ==> var i := IndexOf(name, ' ');
      l[i] == '_' && l[..i] == name[..i] && l[i + 1..] == name[i + 1..]
    ensures '#' !in name ==> '#' !in l
  {
    var l := ReplaceFirst(name, ' ', '_');
    assert '#' !in name ==> '#' !in l by {
      if '#' !in name && ' ' in name {
        var i := IndexOf(name, ' ');
        assert l == name[..i] + "_" + name[i + 1..];
        assert forall k :: 0 <= k < |l| ==> l[k] == '_' || l[k] == name[k];
      }
    }
    l
  }

  /** The subject the static data is queried for; `None` for a building
      without a name, where `replace` on `undefined` throws. */
  function Subject(name: Option<string>): Option<string> {
    match name
    case None => None
    case Some(n) => Some(BuildingsNamespace + LocalName(n))
  }

  /** The building IRI and the statistics table agree on names: the canonical
      name of the IRI built from a display name is that display name, as long
      as the name has no `_` or `#` of its own. */
  lemma SubjectRoundTrip(name: string)
    requires '_' !in name && '#' !in name
    ensures CanonicalName(Subject(Some(name)).value) == Some(name)
  {
    var prefix := "http://ld.sven.mol.it/buildings";
    assert BuildingsNamespace == prefix + "#";
    CanonicalNameOf(prefix, LocalName(name), "");
    ReplaceFirstRoundTrip(name, ' ', '_');
  }

  /** A name with two spaces keeps its second one. */
  lemma OnlyFirstSpace()
    ensures LocalName("a b c") == "a_b c"
  {
    assert IndexOf("a b c", ' ') == 1 by {
      IndexOfAt("a b c", ' ', 1);
    }
  }

  /** The static data: nothing for an empty result, otherwise its first row. */
  function SelectStatic(rows: seq<Row>): (r: Option<Row>)
    ensures r.None? <==> |rows| == 0
    ensures r.Some? ==> r.value == rows[0]
  {
    if |rows| == 0 then None else Some(rows[0])
  }

  /** The panel's state: the name the effect last ran for, and the static
      data. */
  datatype PanelState = PanelState(name: Option<string>, staticData: Option<Row>)

  /** The effect depends on the name only: a new name clears the static data
      and starts a query; the same name does nothing. */
  function NameChanged(s: PanelState, name: Option<string>): (t: PanelState)
    ensures t.name == name
    ensures name != s.name ==> t.staticData.None?
    ensures name == s.name ==> t == s
  {
    if name == s.name then s else PanelState(name, None)
  }

  /** A response arrives: the first row, if any, becomes the static data. */
  function StaticLoaded(s: PanelState, rows: seq<Row>): (t: PanelState)
    ensures t.name == s.name && t.staticData == SelectStatic(rows)
  {
    s.(staticData := SelectStatic(rows))
  }

  /** The heading: the name (nothing for `undefined`), then
      ` (abbreviation)` when static data is present; a missing abbreviation
      prints as `undefined`. */
  function Heading(name: Option<string>, staticData: Option<Row>): (h: string)
    ensures staticData.None? ==> h == ReactText(name)
    ensures staticData.Some? ==> StartsWith(h, ReactText(name) + " (") && h[|h| - 1] == ')'
    ensures staticData.Some? ==>
      h[|ReactText(name)| + 2..|h| - 1] == JsString(Get(staticData.value, "abbreviation"))
  {
    match staticData
    case None => ReactText(name)
    case Some(row) =>
      var n := ReactText(name);
      var a := JsString(Get(row, "abbreviation"));
      var h := n + " (" + a + ")";
      assert h[..|n| + 2] == n + " (";
      assert h[|n| + 2..|h| - 1] == a;
      h
  }

  /** Right after the name changes, the heading is the bare name. */
  lemma NewNameHasNoAbbreviation(s: PanelState, name: Option<string>)
    requires name != s.name
    ensures Heading(name, NameChanged(s, name).staticData) == ReactText(name)
  {
  }

  /** An abbreviation that arrives is shown. */
  lemma AbbreviationShown(s: PanelState, row: Row, rest: seq<Row>)
    requires "abbreviation" in row
    ensures var t := StaticLoaded(s, [row] + rest);
      Heading(t.name, t.staticData) == ReactText(s.name) + " (" + row["abbreviation"] + ")"
  {
  }

  /** One tile: the utility and its reading text. */
  datatype Tile = Tile(utility: Utility, text: string)

  /** The tiles of the given utilities, in their order: one for each utility
      whose reading is truthy. Its own contract only bounds the count; which
      tiles appear is stated by `TilesOfMembers`, their order by
      `TilesInOrder`. */
  function TilesOf(p: Properties, us: seq<Utility>): (ts: seq<Tile>)
    ensures |ts| <= |us|
  {
    if |us| == 0 then []
    else
      var rest := TilesOf(p, us[1..]);
      if Truthy(p.Reading(us[0])) then [Tile(us[0], p.Reading(us[0]).value)] + rest else rest
  }

  /** A tile is shown exactly for each utility with a truthy reading, and
      carries that reading's text. */
  lemma {:induction false} TilesOfMembers(p: Properties, us: seq<Utility>)
    ensures forall t :: t in TilesOf(p, us) ==>
      t.utility in us && Truthy(p.Reading(t.utility)) && t.text == p.Reading(t.utility).value
    ensures forall u :: u in us && Truthy(p.Reading(u)) ==> Tile(u, p.Reading(u).value) in TilesOf(p, us)
    decreases |us|
  {
    if |us| > 0 {
      TilesOfMembers(p, us[1..]);
      assert forall u :: u in us[1..] ==> u in us;
      assert forall u :: u in us ==> u == us[0] || u in us[1..] by {
        assert us == [us[0]] + us[1..];
      }
    }
  }

  /** The tiles of a building: cold, electricity, gas, heat and water, each
      shown exactly when its reading is a non-empty text. */
  function Tiles(b: Building): (ts: seq<Tile>)
    ensures |ts| <= 5
    ensures forall u: Utility :: (exists t :: t in ts && t.utility == u) <==> Truthy(b.properties.Reading(u))
  {
    var ts := TilesOf(b.properties, Utilities);
    TilesOfMembers(b.properties, Utilities);
    assert forall u: Utility :: u in Utilities by {
      forall u: Utility ensures u in Utilities {
        assert Utilities[Position(u)] == u;
      }
    }
    ts
  }

  /** The tiles keep the order of the utilities. */
  lemma {:induction false} TilesInOrder(p: Properties, us: seq<Utility>)
    ensures IsSubsequence(UtilitiesOf(TilesOf(p, us)), us)
    decreases |us|
  {
    if |us| > 0 {
      TilesInOrder(p, us[1..]);
      var rest := TilesOf(p, us[1..]);
      if Truthy(p.Reading(us[0])) {
        assert UtilitiesOf([Tile(us[0], p.Reading(us[0]).value)] + rest) == [us[0]] + UtilitiesOf(rest);
        assert ([us[0]] + UtilitiesOf(rest))[1..] == UtilitiesOf(rest);
      }
    }
  }

  /** The utilities of a sequence of tiles. */
  function UtilitiesOf(ts: seq<Tile>): (us: seq<Utility>)
    ensures |us| == |ts|
    ensures forall i :: 0 <= i < |ts| ==> us[i] == ts[i].utility
  {
    seq(|ts|, i requires 0 <= i < |ts| => ts[i].utility)
  }

  /** With every reading truthy, every utility gets its tile, in order. */
  lemma {:induction false} AllReadingsAllTiles(p: Properties, us: seq<Utility>)
    requires forall i :: 0 <= i < |us| ==> Truthy(p.Reading(us[i]))
    ensures UtilitiesOf(TilesOf(p, us)) == us
    decreases |us|
  {
    if |us| > 0 {
      var rest := TilesOf(p, us[1..]);
      var first := Tile(us[0], p.Reading(us[0]).value);
      assert TilesOf(p, us) == [first] + rest;
      AllReadingsAllTiles(p, us[1..]);
      assert UtilitiesOf([first] + rest) == [us[0]] + UtilitiesOf(rest);
      assert us == [us[0]] + us[1..];
    }
  }

  /** With no reading truthy, there are no tiles. */
  lemma {:induction false} NoReadingsNoTiles(p: Properties, us: seq<Utility>)
    requires forall u :: u in us ==> !Truthy(p.Reading(u))
    ensures TilesOf(p, us) == []
    decreases |us|
  {
    if |us| > 0 {
      assert us[0] in us;
      assert forall u :: u in us[1..] ==> u in us;
      NoReadingsNoTiles(p, us[1..]);
    }
  }

  /** A building without readings shows no tiles; one with every reading
      shows all five, in order. */
  lemma TilesExtremes(b: Building)
    ensures (forall u: Utility :: !Truthy(b.properties.Reading(u))) ==> Tiles(b) == []
    ensures (forall u: Utility :: Truthy(b.properties.Reading(u))) ==>
      UtilitiesOf(Tiles(b)) == Utilities
  {
    if forall u: Utility :: !Truthy(b.properties.Reading(u)) {
      NoReadingsNoTiles(b.properties, Utilities);
    }
    if forall u: Utility :: Truthy(b.properties.Reading(u)) {
      AllReadingsAllTiles(b.properties, Utilities);
    }
  }
}

=== FILE: fill_color.dfy ===
/** The fill colour of a building (src/hooks/useFillColor.ts): a statistics
    table built once from the energy data, a z-score per utility, the largest
    of the five scores, and three linear colour scales over the breakpoints
    0, 1, 2 and 3. */
module FillColor {
  import opened Options
  import opened Strings
  import opened Numbers
  import opened Query
  import opened Types

  // ---------------------------------------------------------------------
  // The statistics table

  /** The historical average and standard deviation of one utility. Either
      is NaN when the query left it unbound or it does not parse. */
  datatype Moments = Moments(avg: Num, dev: Num)

  /** The statistics of one building, one `Moments` per utility. */
  datatype Stats = Stats(cold: Moments, electricity: Moments, gas: Moments, heat: Moments, water: Moments) {
    function Of(u: Utility): Moments {
      match u
      case Cold => cold
      case Electricity => electricity
      case Gas => gas
      case Heat => heat
      case Water => water
    }
  }

  /** Canonical building name to statistics. */
  type StatsTable = map<string, Stats>

  /** The canonical name of a building IRI: its fragment, with the first `_`
      turned into a space. `None` when the IRI has no `#`: the fragment is
      then `undefined` and calling `replace` on it throws a TypeError. */
  function CanonicalName(iri: string): (name: Option<string>)
    ensures name.Some? <==> '#' in iri
    ensures name.Some? ==> '#' !in name.value && |name.value| == |Fragment(iri).value|
  {
    FragmentDefined(iri);
    match Fragment(iri)
    case None => None
    case Some(f) => Some(ReplaceFirst(f, '_', ' '))
  }

  /** The canonical name of `prefix#local...`, where `local` runs to the next
      `#` or the end, is `local` with its first `_` made a space. */
  lemma CanonicalNameOf(prefix: string, local: string, rest: string)
    requires '#' !in prefix && '#' !in local
    ensures CanonicalName(prefix + "#" + local) == Some(ReplaceFirst(local, '_', ' '))
    ensures CanonicalName(prefix + "#" + local + "#" + rest) == Some(ReplaceFirst(local, '_', ' '))
  {
    FieldOne(prefix, '#', local, rest);
  }

  /** The name the statistics row is filed under; `None` when the row has no
      `building` (destructuring gives `undefined`, and `split` on it throws)
      or the IRI has no fragment. */
  function RowName(row: Row): Option<string> {
    match Get(row, "building")
    case None => None
    case Some(iri) => CanonicalName(iri)
  }

  /** The average and the deviation of one utility, each parsed as a float. */
  function MomentsOf(row: Row, u: Utility): Moments {
    Moments(ParseFloat(JsString(Get(row, [u.Letter()] + "Avg"))),
            ParseFloat(JsString(Get(row, [u.Letter()] + "Dev"))))
  }

  function StatsOf(row: Row): Stats {
    Stats(MomentsOf(row, Cold), MomentsOf(row, Electricity), MomentsOf(row, Gas),
          MomentsOf(row, Heat), MomentsOf(row, Water))
  }

  /** What one statistics row files: its name and statistics, or `None` when
      the row throws. */
  function Entry(row: Row): Option<(string, Stats)> {
    match RowName(row)
    case None => None
    case Some(name) => Some((name, StatsOf(row)))
  }

  /** Filing entries one after another into a fresh map, a later entry
      overwriting an earlier one with the same key; `None` once an entry
      throws. */
  function FileAll<V>(entries: seq<Option<(string, V)>>): Option<map<string, V>> {
    if |entries| == 0 then Some(map[])
    else
      match FileAll(entries[..|entries| - 1])
      case None => None
      case Some(t) =>
        match entries[|entries| - 1]
        case None => None
        case Some(e) => Some(t[e.0 := e.1])
  }

  /** Filing succeeds exactly when no entry throws. */
  lemma {:induction false} FileAllSucceeds<V>(entries: seq<Option<(string, V)>>)
    ensures FileAll(entries).Some? <==> forall i :: 0 <= i < |entries| ==> entries[i].Some?
  {
    if |entries| > 0 {
      var init := entries[..|entries| - 1];
      FileAllSucceeds(init);
      assert forall i :: 0 <= i < |init| ==> init[i] == entries[i];
    }
  }

  /** The keys filed are exactly the entries' keys. */
  lemma {:induction false} FileAllKeys<V>(entries: seq<Option<(string, V)>>, key: string)
    requires FileAll(entries).Some?
    ensures key in FileAll(entries).value <==>
      exists i :: 0 <= i < |entries| && entries[i].Some? && entries[i].value.0 == key
  {
    if |entries| > 0 {
      var init := entries[..|entries| - 1];
      FileAllKeys(init, key);
      if exists i :: 0 <= i < |entries| && entries[i].Some? && entries[i].value.0 == key {
        var i :| 0 <= i < |entries| && entries[i].Some? && entries[i].value.0 == key;
        if i < |init| {
          assert init[i] == entries[i];
        }
      }
      if key in FileAll(init).value {
        var i :| 0 <= i < |init| && init[i].Some? && init[i].value.0 == key;
        assert entries[i] == init[i];
      }
    }
  }

  /** The value filed under `key` is that of the last entry with that key. */
  ghost predicate LastWins<V>(entries: seq<Option<(string, V)>>, key: string, v: V) {
    exists i :: 0 <= i < |entries| && entries[i] == Some((key, v))
      && forall j :: i < j < |entries| ==> entries[j].None? || entries[j].value.0 != key
  }

  lemma {:induction false} FileAllLastWins<V>(entries: seq<Option<(string, V)>>, key: string)
    requires FileAll(entries).Some? && key in FileAll(entries).value
    ensures LastWins(entries, key, FileAll(entries).value[key])
  {
    var init := entries[..|entries| - 1];
    var last := entries[|entries| - 1];
    var t := FileAll(init).value;
    var v := FileAll(entries).value[key];
    if last.value.0 == key {
      assert entries[|entries| - 1] == Some((key, v));
    } else {
      assert key in t && t[key] == v;
      FileAllLastWins(init, key);
      var i :| 0 <= i < |init| && init[i] == Some((key, v))
                && forall j :: i < j < |init| ==> init[j].None? || init[j].value.0 != key;
      assert entries[i] == init[i];
      forall j | i < j < |entries| ensures entries[j].None? || entries[j].value.0 != key {
        if j < |init| {
          assert entries[j] == init[j];
        }
      }
    }
  }

  /** The loader's `forEach` over the statistics rows: a fresh table, each row
      filed under its canonical name, a later row overwriting an earlier one
      with the same name. `None` when some row throws. */
  function BuildTable(rows: seq<Row>): Option<StatsTable> {
    FileAll(Entries(rows))
  }

  /** The entries the rows are filed as, one per row. */
  function Entries(rows: seq<Row>): (es: seq<Option<(string, Stats)>>)
    ensures |es| == |rows|
    ensures forall i :: 0 <= i < |rows| ==> es[i] == Entry(rows[i])
  {
    seq(|rows|, i requires 0 <= i < |rows| => Entry(rows[i]))
  }

  /** The entries the table is filed from are the rows' names and statistics. */
  lemma EntriesOf(rows: seq<Row>)
    ensures var es := Entries(rows);
      forall i :: 0 <= i < |rows| ==>
        (es[i].Some? <==> RowName(rows[i]).Some?) &&
        (es[i].Some? ==> es[i].value == (RowName(rows[i]).value, StatsOf(rows[i])))
  {
  }

  /** The load succeeds exactly when every row has a building IRI with a
      fragment. */
  lemma BuildTableSucceeds(rows: seq<Row>)
    ensures BuildTable(rows).Some? <==> forall i :: 0 <= i < |rows| ==> RowName(rows[i]).Some?
  {
    EntriesOf(rows);
    FileAllSucceeds(Entries(rows));
  }

  /** The table holds exactly the rows' names. */
  lemma BuildTableNames(rows: seq<Row>, name: string)
    requires BuildTable(rows).Some?
    ensures name in BuildTable(rows).value <==> exists i :: 0 <= i < |rows| && RowName(rows[i]) == Some(name)
  {
    EntriesOf(rows);
    FileAllKeys(Entries(rows), name);
  }

  /** Row `i` is the last row filed under `name`. */
  ghost predicate LastOfName(rows: seq<Row>, name: string, i: int) {
    0 <= i < |rows| && RowName(rows[i]) == Some(name)
    && forall j :: i < j < |rows| ==> RowName(rows[j]) != Some(name)
  }

  /** Each name holds the statistics of the last row of that name. */
  lemma BuildTableLastWins(rows: seq<Row>, name: string)
    requires BuildTable(rows).Some? && name in BuildTable(rows).value
    ensures exists i :: LastOfName(rows, name, i) && BuildTable(rows).value[name] == StatsOf(rows[i])
  {
    var i := LastEntry(Entries(rows), name);
    assert Entry(rows[i]) == Some((name, BuildTable(rows).value[name]));
    LastEntryIsLastRow(rows, name, i);
  }

  /** The index of the entry whose value is filed under `key`. */
  lemma LastEntry<V>(entries: seq<Option<(string, V)>>, key: string) returns (i: nat)
    requires FileAll(entries).Some? && key in FileAll(entries).value
    ensures i < |entries| && entries[i] == Some((key, FileAll(entries).value[key]))
    ensures forall j :: i < j < |entries| ==> entries[j].None? || entries[j].value.0 != key
  {
    FileAllLastWins(entries, key);
    i :| 0 <= i < |entries| && entries[i] == Some((key, FileAll(entries).value[key]))
      && forall j :: i < j < |entries| ==> entries[j].None? || entries[j].value.0 != key;
  }

  lemma LastEntryIsLastRow(rows: seq<Row>, name: string, i: int)
    requires 0 <= i < |rows|
    requires Entry(rows[i]).Some? && Entry(rows[i]).value.0 == name
    requires forall j :: i < j < |rows| ==> Entries(rows)[j].None? || Entries(rows)[j].value.0 != name
    ensures LastOfName(rows, name, i)
  {
    forall j | i < j < |rows| ensures RowName(rows[j]) != Some(name) {
      assert Entries(rows)[j] == Entry(rows[j]);
    }
  }

  /** Filing starts from an empty table: loading no rows gives an empty table. */
  lemma BuildTableOfNothing()
    ensures BuildTable([]) == Some(map[])
  {
  }

  // ---------------------------------------------------------------------
  // Scores

  /** The score filed for one utility: the reading's distance from the
      average, in deviations. */
  function ZScore(reading: Num, m: Moments): (z: Num)
    ensures reading.NaN? || m.avg.NaN? || m.dev.NaN? ==> z.NaN?
    ensures reading.Finite? && m.avg.Finite? && m.dev.Finite? && m.dev.v != 0.0 ==>
      z == Finite((reading.v - m.avg.v) / m.dev.v)
    ensures reading.Finite? && m.avg.Finite? && m.dev == Finite(0.0) ==>
      z == (if reading.v > m.avg.v then PosInf else if reading.v < m.avg.v then NegInf else NaN)
  {
    Div(Sub(reading, m.avg), m.dev)
  }

  /** `score || 0`: NaN counts as 0 (so do both zeros); nothing else changes. */
  function OrZero(z: Num): (c: Num)
    ensures !c.NaN?
    ensures z.NaN? ==> c == Finite(0.0)
    ensures !z.NaN? ==> c == z
  {
    if z.NaN? then Finite(0.0) else z
  }

  /** The building's reading for one utility, parsed as a float. */
  function ReadingOf(b: Building, u: Utility): Num {
    ParseFloat(JsString(b.properties.Reading(u)))
  }

  /** What one utility contributes to the maximum. */
  function Contribution(s: Stats, b: Building, u: Utility): (c: Num)
    ensures !c.NaN?
  {
    OrZero(ZScore(ReadingOf(b, u), s.Of(u)))
  }

  /** The five arguments of `Math.max`, in the order cold, electricity, gas,
      heat, water. */
  function Contributions(s: Stats, b: Building): seq<Num> {
    seq(|Utilities|, i requires 0 <= i < |Utilities| => Contribution(s, b, Utilities[i]))
  }

  /** `Math.max(...)` of the five contributions. */
  function Magnitude(s: Stats, b: Building): Num {
    MathMax(Contributions(s, b))
  }

  /** The magnitude is never NaN, is at least every utility's contribution,
      and is one of them. */
  lemma MagnitudeIsMax(s: Stats, b: Building, u: Utility)
    ensures !Magnitude(s, b).NaN? && Le(Contribution(s, b, u), Magnitude(s, b))
  {
    assert Contributions(s, b)[Position(u)] == Contribution(s, b, u);
  }

  /** The magnitude is the contribution of some utility. */
  lemma MagnitudeIsAttained(s: Stats, b: Building)
    ensures exists u: Utility :: Contribution(s, b, u) == Magnitude(s, b)
  {
    var cs := Contributions(s, b);
    var i :| 0 <= i < |cs| && cs[i] == Magnitude(s, b);
    assert Contribution(s, b, Utilities[i]) == cs[i];
  }

  // ---------------------------------------------------------------------
  // Colour scales

  /** The output values of one channel's `scaleLinear` at the domain points
      0, 1, 2 and 3. */
  datatype Ramp = Ramp(y0: real, y1: real, y2: real, y3: real) {
    function At(k: nat): real
      requires k <= 3
    {
      if k == 0 then y0 else if k == 1 then y1 else if k == 2 then y2 else y3
    }
  }

  const RedRamp := Ramp(34.0, 154.0, 255.0, 220.0)
  const GreenRamp := Ramp(139.0, 205.0, 215.0, 20.0)
  const BlueRamp := Ramp(34.0, 50.0, 0.0, 60.0)

  /** d3's number interpolator. */
  function Lerp(a: real, b: real, t: real): real {
    a * (1.0 - t) + b * t
  }

  /** The unclamped piecewise-linear scale: d3 picks the segment by bisecting
      the inner breakpoints 1 and 2, so below 1 the first segment is used
      (also below 0) and from 2 on the last one (also above 3). */
  function Interpolate(ramp: Ramp, x: real): real {
    if x < 1.0 then Lerp(ramp.y0, ramp.y1, x)
    else if x < 2.0 then Lerp(ramp.y1, ramp.y2, x - 1.0)
    else Lerp(ramp.y2, ramp.y3, x - 2.0)
  }

  /** A scale applied to a number: an infinite input makes the interpolation
      compute `a * (1 - t) + b * t` with an infinite `t`, which is NaN for
      every pair of outputs; NaN stands for d3's `undefined` on a NaN input. */
  function Scale(ramp: Ramp, m: Num): (r: Num)
    ensures m.Finite? <==> r.Finite?
  {
    match m
    case Finite(x) => Finite(Interpolate(ramp, x))
    case _ => NaN
  }

  function ScaleColor(m: Num): Rgb {
    Rgb(Scale(RedRamp, m), Scale(GreenRamp, m), Scale(BlueRamp, m))
  }

  /** The segment a point falls in, by the integer part of the point rather
      than by comparison: below 0 it is the first, from 3 on the last. */
  function Segment(x: real): (k: nat)
    ensures k <= 2
  {
    var f := x.Floor;
    if f < 0 then 0 else if f > 2 then 2 else f
  }

  /** The straight line through the two breakpoint outputs of the segment
      of `x`, evaluated at `x`. */
  function Line(ramp: Ramp, x: real): real {
    var k := Segment(x);
    ramp.At(k) + (ramp.At(k + 1) - ramp.At(k)) * (x - k as real)
  }

  /** Independent statement of the scale: on the segment of `x` it is the
      straight line through the two breakpoint outputs of that segment. */
  lemma InterpolateIsLine(ramp: Ramp, x: real)
    ensures Interpolate(ramp, x) == Line(ramp, x)
  {
    var k := Segment(x);
    if x < 1.0 {
      assert x.Floor <= 0;
      assert k == 0;
    } else if x < 2.0 {
      assert x.Floor == 1;
    } else {
      assert x.Floor >= 2;
      assert k == 2;
    }
  }

  /** At each breakpoint the scale gives exactly the configured output. */
  lemma InterpolateAtBreakpoints(ramp: Ramp, k: nat)
    requires k <= 3
    ensures Interpolate(ramp, k as real) == ramp.At(k)
  {
  }

  const Grey := Rgb(Finite(127.0), Finite(127.0), Finite(127.0))

  /** The function handed to the map layer: the grey sentinel for a building
      without statistics, otherwise the scaled maximum score. The name is
      looked up as a JavaScript object key, so a missing name is the key
      "undefined". */
  function ColorFor(table: StatsTable, b: Building): (c: Rgb)
    ensures JsString(b.properties.name) !in table ==> c == Grey
  {
    var key := JsString(b.properties.name);
    if key in table then ScaleColor(Magnitude(table[key], b)) else Grey
  }

  /** Until the table has loaded it is empty, so every building is grey. */
  lemma EmptyTableIsGrey(b: Building)
    ensures ColorFor(map[], b) == Grey
  {
  }

  /** A building with statistics gets the colour of its largest score: the
      magnitude is at least every utility's contribution and equals one of
      them; a finite magnitude puts each channel on the line of its segment,
      and an infinite one makes every channel NaN. */
  lemma ColorOfKnownBuilding(table: StatsTable, b: Building)
    requires JsString(b.properties.name) in table
    ensures var s := table[JsString(b.properties.name)];
      var m := Magnitude(s, b);
      !m.NaN? && (forall u: Utility :: Le(Contribution(s, b, u), m)) &&
      (exists u: Utility :: Contribution(s, b, u) == m)
    ensures var m := Magnitude(table[JsString(b.properties.name)], b);
      m.Finite? ==>
        ColorFor(table, b) == Rgb(Finite(Line(RedRamp, m.v)), Finite(Line(GreenRamp, m.v)), Finite(Line(BlueRamp, m.v)))
    ensures var m := Magnitude(table[JsString(b.properties.name)], b);
      !m.Finite? ==> ColorFor(table, b) == Rgb(NaN, NaN, NaN)
  {
    var s := table[JsString(b.properties.name)];
    var m := Magnitude(s, b);
    forall u: Utility ensures Le(Contribution(s, b, u), m) {
      MagnitudeIsMax(s, b, u);
    }
    MagnitudeIsAttained(s, b);
    if m.Finite? {
      InterpolateIsLine(RedRamp, m.v);
      InterpolateIsLine(GreenRamp, m.v);
      InterpolateIsLine(BlueRamp, m.v);
    }
  }

  /** With no usable reading every contribution is 0, so the magnitude is 0
      and the colour is the first breakpoint, (34, 139, 34). */
  lemma NoReadingsIsGreen(table: StatsTable, b: Building)
    requires JsString(b.properties.name) in table
    requires forall u: Utility :: b.properties.Reading(u) == None
    ensures Magnitude(table[JsString(b.properties.name)], b) == Finite(0.0)
    ensures ColorFor(table, b) == Rgb(Finite(34.0), Finite(139.0), Finite(34.0))
  {
    var s := table[JsString(b.properties.name)];
    ParseFloatOfNothing();
    forall u: Utility ensures Contribution(s, b, u) == Finite(0.0) {
      assert ReadingOf(b, u).NaN?;
    }
    MagnitudeIsAttained(s, b);
  }

  /** A magnitude of 2 gives gold, (255, 215, 0). */
  lemma MagnitudeTwoIsGold()
    ensures ScaleColor(Finite(2.0)) == Rgb(Finite(255.0), Finite(215.0), Finite(0.0))
  {
  }

  /** The scales are not clamped: a magnitude of 5 gives a negative green
      channel, and -1 a negative red channel. */
  lemma ScalesAreNotClamped()
    ensures ScaleColor(Finite(5.0)).g == Finite(-370.0)
    ensures ScaleColor(Finite(-1.0)).r == Finite(-86.0)
    ensures ScaleColor(Finite(1.5)).r == Finite(204.5)
  {
  }

  /** A standard deviation of 0 with a reading above the average gives an
      infinite score, which wins the maximum and turns every channel NaN. */
  lemma ZeroDeviationGivesNaNColour(s: Stats, b: Building, u: Utility)
    requires ReadingOf(b, u).Finite? && s.Of(u).avg.Finite?
    requires s.Of(u).dev == Finite(0.0) && ReadingOf(b, u).v > s.Of(u).avg.v
    ensures Magnitude(s, b) == PosInf
    ensures ScaleColor(Magnitude(s, b)) == Rgb(NaN, NaN, NaN)
  {
    MagnitudeIsMax(s, b, u);
    assert Contribution(s, b, u) == PosInf;
  }

  /** A standard deviation of 0 with a reading below the average gives a
      score of -Infinity, which `|| 0` keeps: it loses the maximum to any
      finite contribution, and with no +Infinity score the colour is
      finite. */
  lemma ZeroDeviationBelowAverageLoses(s: Stats, b: Building, u: Utility, v: Utility)
    requires ReadingOf(b, u).Finite? && s.Of(u).avg.Finite?
    requires s.Of(u).dev == Finite(0.0) && ReadingOf(b, u).v < s.Of(u).avg.v
    requires Contribution(s, b, v).Finite?
    requires forall w: Utility :: Contribution(s, b, w) != PosInf
    ensures Contribution(s, b, u) == NegInf
    ensures Magnitude(s, b).Finite?
    ensures var c := ScaleColor(Magnitude(s, b)); c.r.Finite? && c.g.Finite? && c.b.Finite?
  {
    MagnitudeIsMax(s, b, v);
    MagnitudeIsAttained(s, b);
  }

  /** The worked example: cold average 10, deviation 2, reading "14 kWh", no
      other reading. The cold score is 2, it is the largest, and the colour
      is gold. */
  lemma ColdExample(table: StatsTable, b: Building)
    requires JsString(b.properties.name) in table
    requires table[JsString(b.properties.name)].cold == Moments(Finite(10.0), Finite(2.0))
    requires b.properties.cold == Some("14 kWh")
    requires forall u: Utility :: u != Cold ==> b.properties.Reading(u) == None
    ensures ColorFor(table, b) == Rgb(Finite(255.0), Finite(215.0), Finite(0.0))
  {
    var s := table[JsString(b.properties.name)];
    assert NatToString(14) + " kWh" == "14 kWh";
    ParseFloatOfNat(14, " kWh");
    assert ReadingOf(b, Cold) == Finite(14.0);
    ParseFloatOfNothing();
    forall u: Utility | u != Cold ensures Contribution(s, b, u) == Finite(0.0) {
      assert ReadingOf(b, u).NaN?;
    }
    assert Contribution(s, b, Cold) == Finite(2.0);
    MagnitudeIsMax(s, b, Cold);
    MagnitudeIsAttained(s, b);
    assert Magnitude(s, b) == Finite(2.0);
  }
}

=== FILE: holiday.dfy ===
/** The holiday line of the side panel (src/holiday.tsx): the holiday found
    for a date, formatted from the first result row, and the fallback text
    for weekends and working days. The calendar arithmetic of `Date` is an
    input: `Calendar` says what `new Date(text)` makes of a text. */
module Holiday {
  import opened Options
  import opened Strings
  import opened Numbers
  import opened Query

  /** The type of a holiday IRI: its fragment up to the first `-`. `None`
      when the IRI has no `#`, where `split` is called on `undefined` and
      throws. */
  function HolidayType(iri: string): (t: Option<string>)
    ensures t.Some? <==> '#' in iri
    ensures t.Some? ==> '#' !in t.value && '-' !in t.value
  {
    FragmentDefined(iri);
    match Fragment(iri)
    case None => None
    case Some(f) => Field(f, '-', 0)
  }

  /** The type of `prefix#name-rest` is `name`, whatever `rest` holds: a
      second `#` in it only cuts the fragment short of the text after the
      dash. The type of `prefix#name` is `name` too. */
  lemma HolidayTypeOf(prefix: string, name: string, rest: string)
    requires '#' !in prefix && '#' !in name && '-' !in name
    ensures HolidayType(prefix + "#" + name + "-" + rest) == Some(name)
    ensures HolidayType(prefix + "#" + name) == Some(name)
  {
    var iri := prefix + "#" + name + "-" + rest;
    var i := IndexOf(rest, '#');
    if i < 0 {
      var f := name + "-" + rest;
      assert iri == prefix + ['#'] + f;
      FieldOne(prefix, '#', f, "");
      FieldZero(name, '-', rest);
    } else {
      var head := rest[..i];
      var f := name + "-" + head;
      assert iri == prefix + ['#'] + f + ['#'] + rest[i + 1..] by {
        assert rest == head + ['#'] + rest[i + 1..];
      }
      FieldOne(prefix, '#', f, rest[i + 1..]);
      FieldZero(name, '-', head);
    }
    FieldOne(prefix, '#', name, "");
    FieldZero(name, '-', "");
  }

  /** The day of the month and the zero-based month of a valid `Date`. */
  datatype DayMonth = DayMonth(date: nat, month0: nat)

  /** What `new Date(text)` gives: `None` for an invalid date, whose
      `getDate()` and `getMonth()` are NaN. */
  type Calendar = string -> Option<DayMonth>

  /** One end of the holiday as day of the month, a slash, and the month
      counted from 1; both numbers of an invalid date print as NaN. */
  function DatePart(d: Option<DayMonth>): (s: string)
    ensures d.Some? ==> s == NatToString(d.value.date) + "/" + NatToString(d.value.month0 + 1)
    ensures d.None? ==> s == "NaN/NaN"
  {
    match d
    case None => "NaN/NaN"
    case Some(dm) => NatToString(dm.date) + "/" + NatToString(dm.month0 + 1)
  }

  /** Reading a date part back: `parseInt` of the whole part gives the day,
      and the text after the slash is the one-based month. */
  lemma DatePartReadBack(dm: DayMonth)
    ensures ParseInt(DatePart(Some(dm))) == Some(dm.date)
    ensures Field(DatePart(Some(dm)), '/', 0) == Some(NatToString(dm.date))
    ensures Field(DatePart(Some(dm)), '/', 1) == Some(NatToString(dm.month0 + 1))
    ensures ParseInt(Field(DatePart(Some(dm)), '/', 1).value) == Some(dm.month0 + 1)
  {
    var day := NatToString(dm.date);
    var month := NatToString(dm.month0 + 1);
    var part := DatePart(Some(dm));
    assert part == day + ['/'] + month;
    NoSlash(dm.date);
    NoSlash(dm.month0 + 1);
    assert ParseInt(part) == Some(dm.date) by {
      assert part == day + (['/'] + month);
      ParseIntOfNat(dm.date, ['/'] + month);
    }
    assert Field(part, '/', 0) == Some(day) by {
      FieldZero(day, '/', month);
    }
    assert Field(part, '/', 1) == Some(month) by {
      FieldOne(day, '/', month, "");
    }
    assert ParseInt(month) == Some(dm.month0 + 1) by {
      assert month + "" == month;
      ParseIntOfNat(dm.month0 + 1, "");
    }
  }

  /** Printed numbers hold no slash. */
  lemma NoSlash(n: nat)
    ensures '/' !in NatToString(n)
  {
    var d := NatToString(n);
    assert forall i :: 0 <= i < |d| ==> IsDecimalDigit(d[i]);
  }

  /** The holiday text: its type, then the two ends in parentheses,
      separated by a spaced dash. */
  function Label(kind: string, start: Option<DayMonth>, end: Option<DayMonth>): (l: string)
    ensures StartsWith(l, kind + " (")
    ensures |l| > 0 && l[|l| - 1] == ')'
    ensures l[|kind| + 2..|l| - 1] == DatePart(start) + " - " + DatePart(end)
  {
    var middle := DatePart(start) + " - " + DatePart(end);
    var l := kind + " (" + middle + ")";
    assert l[..|kind + " ("|] == kind + " (";
    assert l[|kind| + 2..|l| - 1] == middle;
    l
  }

  /** What the callback does with the rows: no rows clear the holiday; else
      only the first row is read, and a row whose `holiday` is missing or has
      no fragment throws, which leaves the holiday as it was. */
  function HolidayOfRows(rows: seq<Row>, calendar: Calendar): (u: Update<Option<string>>)
    ensures |rows| == 0 ==> u == Set(None)
    ensures |rows| > 0 ==> (u.Keep? <==> "holiday" !in rows[0] || '#' !in rows[0]["holiday"])
    ensures |rows| > 0 && u.Set? ==> u.value.Some? && |u.value.value| > 0 && u.value.value[|u.value.value| - 1] == ')'
    ensures u.Set? && u.value.Some? ==>
      exists t :: HolidayType(rows[0]["holiday"]) == Some(t) && StartsWith(u.value.value, t + " (")
    ensures u.Set? && u.value.Some? ==>
      var l := u.value.value;
      var t := HolidayType(rows[0]["holiday"]).value;
      |t| + 2 <= |l| - 1 &&
      l[|t| + 2..|l| - 1] == DatePart(DateOf(calendar, Get(rows[0], "start"))) + " - "
        + DatePart(DateOf(calendar, Get(rows[0], "end")))
  {
    if |rows| == 0 then Set(None)
    else
      var row := rows[0];
      match Get(row, "holiday")
      case None => Keep
      case Some(iri) =>
        match HolidayType(iri)
        case None => Keep
        case Some(t) =>
          Set(Some(Label(t, DateOf(calendar, Get(row, "start")), DateOf(calendar, Get(row, "end")))))
  }

  /** `new Date(v)` for a row value: a missing value is `undefined`, which
      converts to NaN and always gives an invalid date. */
  function DateOf(calendar: Calendar, v: Option<string>): Option<DayMonth> {
    match v
    case None => None
    case Some(text) => calendar(text)
  }

  /** Only the first row counts: two results with the same first row set
      the same holiday. */
  lemma FirstRowOnly(rows: seq<Row>, others: seq<Row>, calendar: Calendar)
    requires |rows| > 0 && |others| > 0 && rows[0] == others[0]
    ensures HolidayOfRows(rows, calendar) == HolidayOfRows(others, calendar)
  {
  }

  /** A worked label: a Christmas holiday from 23 December to 8 January. */
  lemma LabelExample()
    ensures Label("Christmas", Some(DayMonth(23, 11)), Some(DayMonth(8, 0))) == "Christmas (23/12 - 8/1)"
  {
    assert DatePart(Some(DayMonth(23, 11))) == "23/12" by {
      assert NatToString(2) == "2" && NatToString(3) == "3";
      assert NatToString(23) == "23";
      assert NatToString(1) == "1";
      assert NatToString(12) == "12";
    }
    assert DatePart(Some(DayMonth(8, 0))) == "8/1" by {
      assert NatToString(8) == "8" && NatToString(1) == "1";
    }
  }

  /** Sunday (day 0) and Saturday (day 6) are the weekend; an invalid date
      (`None`) is not. */
  predicate IsWeekend(dayOfWeek: Option<int>) {
    dayOfWeek == Some(0) || dayOfWeek == Some(6)
  }

  /** The holiday when one is set and non-empty; otherwise `Weekend` or
      `Working day`. */
  function Display(holiday: Option<string>, weekend: bool): (s: string)
    ensures Truthy(holiday) ==> s == holiday.value
    ensures !Truthy(holiday) && weekend ==> s == "Weekend"
    ensures !Truthy(holiday) && !weekend ==> s == "Working day"
  {
    if Truthy(holiday) then holiday.value else if weekend then "Weekend" else "Working day"
  }

  /** A holiday the callback sets always wins over the weekend test, and
      never reads as either fallback text. */
  lemma HolidayWins(rows: seq<Row>, calendar: Calendar, weekend: bool)
    requires HolidayOfRows(rows, calendar).Set? && HolidayOfRows(rows, calendar).value.Some?
    ensures var h := HolidayOfRows(rows, calendar).value;
      Display(h, weekend) == h.value && h.value != "Weekend" && h.value != "Working day"
  {
    var l := HolidayOfRows(rows, calendar).value.value;
    assert l[|l| - 1] == ')';
  }

  /** Without a holiday the text depends on the day of the week alone. */
  lemma NoHolidayFallback(calendar: Calendar, dayOfWeek: Option<int>)
    ensures Display(HolidayOfRows([], calendar).value, IsWeekend(dayOfWeek)) ==
      if dayOfWeek == Some(0) || dayOfWeek == Some(6) then "Weekend" else "Working day"
  {
  }
}

=== FILE: numbers.dfy ===
/** JavaScript numbers as the front-end uses them: the `Num` values (exact
    reals plus the two infinities and NaN), the arithmetic the z-scores need,
    `Math.max`, `Number.prototype.toString` on naturals, and the global
    `parseInt` and `parseFloat` functions. */
module Numbers {
  import opened Options
  import opened Strings

  /** A JavaScript number. Finite values are exact reals: rounding to the
      nearest double and the sign of zero are not modelled. */
  datatype Num = Finite(v: real) | PosInf | NegInf | NaN

  function Neg(a: Num): Num {
    match a
    case Finite(x) => Finite(-x)
    case PosInf => NegInf
    case NegInf => PosInf
    case NaN => NaN
  }

  /** `a + b` under the IEEE 754 rules for infinities and NaN. */
  function Add(a: Num, b: Num): (r: Num)
    ensures a.NaN? || b.NaN? ==> r.NaN?
    ensures a.Finite? && b.Finite? ==> r == Finite(a.v + b.v)
    ensures (a.PosInf? && b.NegInf?) || (a.NegInf? && b.PosInf?) ==> r.NaN?
  {
    match (a, b)
    case (NaN, _) => NaN
    case (_, NaN) => NaN
    case (Finite(x), Finite(y)) => Finite(x + y)
    case (PosInf, NegInf) => NaN
    case (NegInf, PosInf) => NaN
    case (PosInf, _) => PosInf
    case (_, PosInf) => PosInf
    case (NegInf, _) => NegInf
    case (_, NegInf) => NegInf
  }

  /** `a - b`. */
  function Sub(a: Num, b: Num): Num {
    Add(a, Neg(b))
  }

  /** `a / b` under the IEEE 754 rules: a non-zero finite number divided by
      zero is an infinity of its sign, `0 / 0` and `Infinity / Infinity` are NaN. */
  function Div(a: Num, b: Num): (r: Num)
    ensures a.NaN? || b.NaN? ==> r.NaN?
    ensures a.Finite? && b.Finite? && b.v != 0.0 ==> r == Finite(a.v / b.v)
    ensures a.Finite? && b == Finite(0.0) ==>
      r == (if a.v > 0.0 then PosInf else if a.v < 0.0 then NegInf else NaN)
  {
    match (a, b)
    case (NaN, _) => NaN
    case (_, NaN) => NaN
    case (Finite(x), Finite(y)) =>
      if y != 0.0 then Finite(x / y)
      else if x > 0.0 then PosInf
      else if x < 0.0 then NegInf
      else NaN
    case (Finite(_), _) => Finite(0.0)
    case (_, Finite(y)) => if y >= 0.0 then a else Neg(a)
    case (_, _) => NaN
  }

  /** The order of `Math.max` on numbers that are not NaN. */
  predicate Le(a: Num, b: Num)
    requires !a.NaN? && !b.NaN?
  {
    match (a, b)
    case (NegInf, _) => true
    case (_, PosInf) => true
    case (Finite(x), Finite(y)) => x <= y
    case (_, _) => false
  }

  /** `Math.max(a, b)`. */
  function Max2(a: Num, b: Num): (r: Num)
    ensures a.NaN? || b.NaN? ==> r.NaN?
    ensures !a.NaN? && !b.NaN? ==> !r.NaN? && Le(a, r) && Le(b, r) && (r == a || r == b)
  {
    if a.NaN? || b.NaN? then NaN else if Le(a, b) then b else a
  }

  /** `Math.max(...xs)`: NaN as soon as one argument is NaN, otherwise the
      largest argument; `-Infinity` for no arguments. */
  function MathMax(xs: seq<Num>): (r: Num)
    ensures r.NaN? <==> exists i :: 0 <= i < |xs| && xs[i].NaN?
    ensures !r.NaN? ==> forall i :: 0 <= i < |xs| ==> Le(xs[i], r)
    ensures |xs| == 0 ==> r == NegInf
    ensures |xs| > 0 && !r.NaN? ==> exists i :: 0 <= i < |xs| && xs[i] == r
  {
    if |xs| == 0 then NegInf
    else
      var init := xs[..|xs| - 1];
      var m := MathMax(init);
      assert forall i :: 0 <= i < |init| ==> init[i] == xs[i];
      var r := Max2(m, xs[|xs| - 1]);
      assert !r.NaN? ==> Le(m, r);
      r
  }

  lemma LeTransitive(a: Num, b: Num, c: Num)
    requires !a.NaN? && !b.NaN? && !c.NaN?
    requires Le(a, b) && Le(b, c)
    ensures Le(a, c)
  {
  }

  // ---------------------------------------------------------------------
  // Digits and decimal text

  predicate IsDecimalDigit(ch: char) {
    '0' <= ch <= '9'
  }

  /** The value of a digit in base 36 notation, as `parseInt` reads it. */
  function DigitValue(ch: char): nat {
    if '0' <= ch <= '9' then ch as int - '0' as int
    else if 'a' <= ch <= 'z' then ch as int - 'a' as int + 10
    else if 'A' <= ch <= 'Z' then ch as int - 'A' as int + 10
    else 36
  }

  predicate IsDigitIn(ch: char, radix: nat) {
    DigitValue(ch) < radix
  }

  lemma DecimalDigitIsDigitIn10(ch: char)
    ensures IsDecimalDigit(ch) <==> IsDigitIn(ch, 10)
  {
  }

  /** The number a string of digits denotes in the given base. */
  function DigitsValue(s: string, radix: nat): nat {
    if |s| == 0 then 0
    else DigitsValue(s[..|s| - 1], radix) * radix + DigitValue(s[|s| - 1])
  }

  /** The length of the longest prefix of `s` made of digits of the base. */
  function DigitRun(s: string, radix: nat): (k: nat)
    ensures k <= |s|
    ensures forall i :: 0 <= i < k ==> IsDigitIn(s[i], radix)
    ensures k < |s| ==> !IsDigitIn(s[k], radix)
  {
    if |s| == 0 || !IsDigitIn(s[0], radix) then 0 else 1 + DigitRun(s[1..], radix)
  }

  /** A run of digits followed by a non-digit is read to its end. */
  lemma DigitRunOf(digits: string, rest: string, radix: nat)
    requires forall i :: 0 <= i < |digits| ==> IsDigitIn(digits[i], radix)
    requires |rest| > 0 ==> !IsDigitIn(rest[0], radix)
    ensures DigitRun(digits + rest, radix) == |digits|
  {
    var s := digits + rest;
    var k := DigitRun(s, radix);
    assert |rest| > 0 ==> s[|digits|] == rest[0];
    assert forall i :: 0 <= i < |digits| ==> s[i] == digits[i];
  }

  function DecimalChar(d: nat): (ch: char)
    requires d < 10
    ensures IsDecimalDigit(ch) && DigitValue(ch) == d
  {
    ('0' as int + d) as char
  }

  /** `n.toString()` for a natural number: its decimal digits, most
      significant first, without leading zeros. */
  function NatToString(n: nat): (s: string)
    ensures |s| >= 1
    ensures forall i :: 0 <= i < |s| ==> IsDecimalDigit(s[i])
    ensures s[0] == '0' ==> n == 0
  {
    if n < 10 then [DecimalChar(n)]
    else NatToString(n / 10) + [DecimalChar(n % 10)]
  }

  /** Reading the decimal text of a number gives the number back. */
  lemma {:induction false} NatToStringValue(n: nat)
    ensures DigitsValue(NatToString(n), 10) == n
  {
    if n >= 10 {
      var s := NatToString(n);
      assert s[..|s| - 1] == NatToString(n / 10);
      NatToStringValue(n / 10);
    }
  }

  /** Writing the value of a digit string without leading zeros gives the
      string back. */
  lemma {:induction false} ValueToString(s: string)
    requires |s| >= 1
    requires forall i :: 0 <= i < |s| ==> IsDecimalDigit(s[i])
    requires |s| > 1 ==> s[0] != '0'
    ensures NatToString(DigitsValue(s, 10)) == s
    decreases |s|
  {
    var init := s[..|s| - 1];
    var last := s[|s| - 1];
    if |s| == 1 {
      assert DigitsValue(s, 10) == DigitValue(last);
    } else {
      ValueToString(init);
      var v := DigitsValue(init, 10);
      assert init[0] == s[0];
      assert v >= 1;
      assert DigitsValue(s, 10) == v * 10 + DigitValue(last);
      assert (v * 10 + DigitValue(last)) / 10 == v;
      assert (v * 10 + DigitValue(last)) % 10 == DigitValue(last);
      assert s == init + [last];
    }
  }

  /** Numbers from 1000 to 9999 are written with four digits. */
  lemma FourDigits(n: nat)
    requires 1000 <= n <= 9999
    ensures |NatToString(n)| == 4
  {
    assert |NatToString(n / 1000)| == 1;
    assert |NatToString(n / 100)| == 2;
    assert |NatToString(n / 10)| == 3;
  }

  /** Numbers below 100 are written with one or two digits. */
  lemma AtMostTwoDigits(n: nat)
    requires n < 100
    ensures |NatToString(n)| == if n < 10 then 1 else 2
  {
  }

  // ---------------------------------------------------------------------
  // parseInt and parseFloat

  /** The characters `parseInt` and `parseFloat` skip at the start: the
      StrWhiteSpaceChar production of ECMAScript (white space and line
      terminators). */
  predicate IsJsWhiteSpace(ch: char) {
    var c := ch as int;
    (0x09 <= c <= 0x0D) || c == 0x20 || c == 0xA0 || c == 0x1680
    || (0x2000 <= c <= 0x200A) || c == 0x2028 || c == 0x2029
    || c == 0x202F || c == 0x205F || c == 0x3000 || c == 0xFEFF
  }

  /** `s` without its leading white space. */
  function TrimStart(s: string): (t: string)
    ensures |t| <= |s| && s[|s| - |t|..] == t
    ensures forall i :: 0 <= i < |s| - |t| ==> IsJsWhiteSpace(s[i])
    ensures |t| > 0 ==> !IsJsWhiteSpace(t[0])
    ensures |s| > 0 && !IsJsWhiteSpace(s[0]) ==> t == s
  {
    if |s| > 0 && IsJsWhiteSpace(s[0]) then TrimStart(s[1..]) else s
  }

  /** Trimming undoes padding: white space put in front of a text that does
      not start with white space is removed, and nothing else is. */
  lemma {:induction false} TrimStartOfPadded(w: string, t: string)
    requires forall i :: 0 <= i < |w| ==> IsJsWhiteSpace(w[i])
    requires |t| > 0 ==> !IsJsWhiteSpace(t[0])
    ensures TrimStart(w + t) == t
    decreases |w|
  {
    if |w| == 0 {
      assert w + t == t;
    } else {
      assert (w + t)[0] == w[0];
      assert (w + t)[1..] == w[1..] + t;
      TrimStartOfPadded(w[1..], t);
    }
  }

  /** The sign in front of a number: whether it is `-`, and the text after it. */
  function SignOf(t: string): (bool, string) {
    if |t| > 0 && t[0] == '-' then (true, t[1..])
    else if |t| > 0 && t[0] == '+' then (false, t[1..])
    else (false, t)
  }

  /** The global `parseInt(s)` without a radix: leading white space and one
      sign are skipped, a `0x` or `0X` prefix selects base 16, and the longest
      run of digits is read; no digits at all gives NaN, written `None`. */
  function ParseInt(s: string): Option<int> {
    var (negative, u) := SignOf(TrimStart(s));
    var hex := |u| >= 2 && u[0] == '0' && (u[1] == 'x' || u[1] == 'X');
    var radix := if hex then 16 else 10;
    var v := if hex then u[2..] else u;
    var k := DigitRun(v, radix);
    if k == 0 then None
    else
      var m: int := DigitsValue(v[..k], radix);
      Some(if negative then -m else m)
  }

  /** A string that starts with a digit has no white space or sign to skip. */
  lemma PlainStart(s: string)
    requires |s| > 0 && IsDecimalDigit(s[0])
    ensures SignOf(TrimStart(s)) == (false, s)
    ensures !StartsWith(s, "Infinity")
  {
    assert !IsJsWhiteSpace(s[0]) && s[0] != '-' && s[0] != '+';
    assert TrimStart(s) == s;
    if |s| >= 8 {
      assert s[..8][0] == s[0] != 'I';
    }
  }

  /** `parseInt` reads back the decimal text of a number, whatever follows it
      as long as it does not start with a digit or, after `0`, with the `x`
      that would make it a hexadecimal prefix. */
  lemma ParseIntOfNat(n: nat, rest: string)
    requires |rest| > 0 ==> !IsDecimalDigit(rest[0]) && rest[0] != 'x' && rest[0] != 'X'
    ensures ParseInt(NatToString(n) + rest) == Some(n)
  {
    var d := NatToString(n);
    var s := d + rest;
    assert s[0] == d[0];
    PlainStart(s);
    assert !(|s| >= 2 && s[0] == '0' && (s[1] == 'x' || s[1] == 'X')) by {
      if |s| >= 2 && s[0] == '0' {
        assert |d| == 1;
        assert s[1] == rest[0];
      }
    }
    DigitsThen(d, rest);
    ParseIntDecimal(s, |d|);
    NatToStringValue(n);
  }

  /** `parseInt` on text that starts with decimal digits and no `0x` prefix
      reads those digits. */
  lemma ParseIntDecimal(s: string, k: nat)
    requires SignOf(TrimStart(s)) == (false, s)
    requires !(|s| >= 2 && s[0] == '0' && (s[1] == 'x' || s[1] == 'X'))
    requires 0 < k <= |s| && DigitRun(s, 10) == k
    ensures ParseInt(s) == Some(DigitsValue(s[..k], 10))
  {
  }

  /** 10 to the power `e`, for any integer `e`. */
  function Pow10(e: int): (r: real)
    ensures r > 0.0
    decreases if e < 0 then -e else e
  {
    if e == 0 then 1.0
    else if e > 0 then 10.0 * Pow10(e - 1)
    else Pow10(e + 1) / 10.0
  }

  /** The exponent part `e12`, `E-3`, `e+5` at the start of `t`, or 0 when
      `t` does not start with a complete one. */
  function ExponentOf(t: string): int {
    if |t| >= 1 && (t[0] == 'e' || t[0] == 'E') then
      var (negative, u) := SignOf(t[1..]);
      var k := DigitRun(u, 10);
      if k == 0 then 0
      else
        var m: int := DigitsValue(u[..k], 10);
        if negative then -m else m
    else 0
  }

  /** The global `parseFloat(s)`: leading white space is skipped, then the
      longest prefix that is a StrDecimalLiteral of ECMAScript is read: a sign,
      then `Infinity`, or digits with an optional fraction after `.` and an
      optional exponent. Without such a prefix the result is NaN. */
  function ParseFloat(s: string): Num {
    var (negative, u) := SignOf(TrimStart(s));
    var x := if StartsWith(u, "Infinity") then PosInf else DecimalFloat(u);
    if negative then Neg(x) else x
  }

  /** The unsigned decimal literal at the start of `u`, or NaN: digits, an
      optional `.` with more digits, and at least one digit in all. */
  function DecimalFloat(u: string): Num {
    var i := DigitRun(u, 10);
    var afterWhole := u[i..];
    if |afterWhole| > 0 && afterWhole[0] == '.' then
      var f := afterWhole[1..];
      var j := DigitRun(f, 10);
      if i == 0 && j == 0 then NaN else Mantissa(u[..i], f[..j], f[j..])
    else if i == 0 then NaN
    else Mantissa(u[..i], "", afterWhole)
  }

  /** The value of `whole.fraction` scaled by the exponent at the start of `rest`. */
  function Mantissa(whole: string, fraction: string, rest: string): Num {
    var m := DigitsValue(whole, 10) as real + DigitsValue(fraction, 10) as real / Pow10(|fraction|);
    Finite(m * Pow10(ExponentOf(rest)))
  }

  /** `parseFloat(undefined)` and `parseFloat("")` are NaN. */
  lemma ParseFloatOfNothing()
    ensures ParseFloat("").NaN?
    ensures ParseFloat("undefined").NaN?
  {
    ParseFloatOfLetter("");
    ParseFloatOfLetter("undefined");
  }

  /** Text that starts with neither white space, a sign, a digit, `.` nor `I`
      is not a number. */
  lemma ParseFloatOfLetter(s: string)
    requires |s| > 0 ==> !IsJsWhiteSpace(s[0]) && !IsDecimalDigit(s[0])
    requires |s| > 0 ==> s[0] != '-' && s[0] != '+' && s[0] != '.' && s[0] != 'I'
    ensures ParseFloat(s).NaN?
  {
    assert TrimStart(s) == s;
    assert SignOf(s) == (false, s);
    assert !StartsWith(s, "Infinity");
    if |s| > 0 {
      assert !IsDigitIn(s[0], 10);
    }
    assert DigitRun(s, 10) == 0;
  }

  /** `parseFloat` reads a decimal number `digits.fraction` and ignores a unit
      written after it, such as the ` kWh` of a measurement. */
  lemma ParseFloatOfDecimal(whole: string, fraction: string, unit: string)
    requires |whole| >= 1
    requires forall i :: 0 <= i < |whole| ==> IsDecimalDigit(whole[i])
    requires forall i :: 0 <= i < |fraction| ==> IsDecimalDigit(fraction[i])
    requires |unit| > 0 ==> !IsDecimalDigit(unit[0]) && unit[0] != 'e' && unit[0] != 'E'
    ensures ParseFloat(whole + "." + fraction + unit)
         == Finite(DigitsValue(whole, 10) as real + DigitsValue(fraction, 10) as real / Pow10(|fraction|))
  {
    var s := whole + "." + fraction + unit;
    assert s[0] == whole[0];
    ParseFloatPlain(s);
    DecimalFloatWithFraction(whole, fraction, unit);
  }

  lemma DecimalFloatWithFraction(whole: string, fraction: string, unit: string)
    requires |whole| >= 1
    requires forall i :: 0 <= i < |whole| ==> IsDecimalDigit(whole[i])
    requires forall i :: 0 <= i < |fraction| ==> IsDecimalDigit(fraction[i])
    requires |unit| > 0 ==> !IsDecimalDigit(unit[0]) && unit[0] != 'e' && unit[0] != 'E'
    ensures DecimalFloat(whole + "." + fraction + unit)
         == Finite(DigitsValue(whole, 10) as real + DigitsValue(fraction, 10) as real / Pow10(|fraction|))
  {
    var f := fraction + unit;
    var tail := ['.'] + f;
    var s := whole + tail;
    assert s == whole + "." + fraction + unit;
    DigitsThen(whole, tail);
    DigitsThen(fraction, unit);
    var i := |whole|;
    assert s[i..] == tail;
    assert tail[1..] == f;
    assert s[i + 1..] == s[i..][1..];
    assert s[i] == '.';
    DotSplit(s, i, |fraction|);
    MantissaWithoutExponent(whole, fraction, unit);
  }

  /** `DecimalFloat` on digits, a `.` and more digits. */
  lemma DotSplit(u: string, i: nat, j: nat)
    requires 0 < i < |u| && DigitRun(u, 10) == i && u[i] == '.'
    requires DigitRun(u[i + 1..], 10) == j
    ensures DecimalFloat(u) == Mantissa(u[..i], u[i + 1..][..j], u[i + 1..][j..])
  {
    assert u[i..][1..] == u[i + 1..];
  }

  /** Splitting a string at the end of its leading run of decimal digits. */
  lemma DigitsThen(digits: string, rest: string)
    requires forall i :: 0 <= i < |digits| ==> IsDecimalDigit(digits[i])
    requires |rest| > 0 ==> !IsDecimalDigit(rest[0])
    ensures DigitRun(digits + rest, 10) == |digits|
    ensures (digits + rest)[..|digits|] == digits
    ensures (digits + rest)[|digits|..] == rest
  {
    AllDigitsIn10(digits);
    if |rest| > 0 {
      DecimalDigitIsDigitIn10(rest[0]);
    }
    DigitRunOf(digits, rest, 10);
  }

  lemma MantissaWithoutExponent(whole: string, fraction: string, unit: string)
    requires |unit| > 0 ==> unit[0] != 'e' && unit[0] != 'E'
    ensures Mantissa(whole, fraction, unit)
         == Finite(DigitsValue(whole, 10) as real + DigitsValue(fraction, 10) as real / Pow10(|fraction|))
  {
    assert ExponentOf(unit) == 0;
    assert Pow10(0) == 1.0;
  }

  lemma AllDigitsIn10(s: string)
    requires forall i :: 0 <= i < |s| ==> IsDecimalDigit(s[i])
    ensures forall i :: 0 <= i < |s| ==> IsDigitIn(s[i], 10)
  {
  }

  /** A string that starts with a digit is read as an unsigned decimal literal. */
  lemma ParseFloatPlain(s: string)
    requires |s| > 0 && IsDecimalDigit(s[0])
    ensures ParseFloat(s) == DecimalFloat(s)
  {
    PlainStart(s);
  }

  lemma DecimalFloatOfDigits(d: string, unit: string)
    requires |d| >= 1
    requires forall i :: 0 <= i < |d| ==> IsDecimalDigit(d[i])
    requires |unit| > 0 ==> !IsDecimalDigit(unit[0]) && unit[0] != '.' && unit[0] != 'e' && unit[0] != 'E'
    ensures DecimalFloat(d + unit) == Finite(DigitsValue(d, 10) as real)
  {
    var u := d + unit;
    DigitsThen(d, unit);
    WholeOnly(u, |d|);
    assert DecimalFloat(u) == Mantissa(d, "", unit);
    MantissaOfWhole(d, unit);
  }

  /** A mantissa without fraction digits or exponent is the whole part. */
  lemma MantissaOfWhole(whole: string, unit: string)
    requires |unit| > 0 ==> unit[0] != 'e' && unit[0] != 'E'
    ensures Mantissa(whole, "", unit) == Finite(DigitsValue(whole, 10) as real)
  {
    MantissaWithoutExponent(whole, "", unit);
    assert DigitsValue("", 10) == 0;
    assert Pow10(0) == 1.0;
  }

  /** `DecimalFloat` on digits not followed by a `.`. */
  lemma WholeOnly(u: string, i: nat)
    requires 0 < i <= |u| && DigitRun(u, 10) == i
    requires i < |u| ==> u[i] != '.'
    ensures DecimalFloat(u) == Mantissa(u[..i], "", u[i..])
  {
  }

  /** `parseFloat` reads back the decimal text of a number followed by a unit. */
  lemma ParseFloatOfNat(n: nat, unit: string)
    requires |unit| > 0 ==> !IsDecimalDigit(unit[0]) && unit[0] != '.' && unit[0] != 'e' && unit[0] != 'E'
    ensures ParseFloat(NatToString(n) + unit) == Finite(n as real)
  {
    var d := NatToString(n);
    assert (d + unit)[0] == d[0];
    ParseFloatPlain(d + unit);
    DecimalFloatOfDigits(d, unit);
    NatToStringValue(n);
  }
}

=== FILE: options.dfy ===
/** Optional values, and the state change a promise callback makes. */
module Options {

  /** A value that may be missing: `None` stands for JavaScript's `undefined`. */
  datatype Option<+T> = None | Some(value: T) {

    /** The value, or `default` when it is missing. */
    function GetOr(default: T): T {
      match this
      case Some(v) => v
      case None => default
    }
  }

  /** What a `.then(...)` callback does to a piece of component state: either it
      sets a new value, or it throws, the promise rejects and the state keeps
      the value it had. */
  datatype Update<+T> = Set(value: T) | Keep {

    function Apply(previous: T): T {
      match this
      case Set(v) => v
      case Keep => previous
    }
  }
}

=== FILE: query.dfy ===
/** The SPARQL endpoint address and the decoding of result bindings into
    flat rows (src/query.ts). A binding set follows the SPARQL 1.1 Query
    Results JSON Format (section 3.2.2 of that recommendation): each bound
    variable maps to an RDF term object with a `type` and a `value`. */
module Query {
  import opened Options
  import opened Strings

  /** One RDF term of a binding set: its `type` ("uri", "literal", "bnode",
      or whatever else a server sends) and its `value`. */
  datatype Term = Term(kind: string, value: string)

  /** One binding set: variable name to term. */
  type Binding = map<string, Term>

  /** One decoded result row: variable name to value. A variable that is not
      in the map reads as `undefined`. */
  type Row = map<string, string>

  /** `row[key]`. */
  function Get(row: Row, key: string): Option<string> {
    if key in row then Some(row[key]) else None
  }

  /** What JavaScript makes of a possibly-undefined value in a string context
      (a template literal, an object key, `parseFloat`): `undefined` becomes
      the text "undefined". */
  function JsString(o: Option<string>): string {
    o.GetOr("undefined")
  }

  /** Whether a possibly-undefined string is truthy: set and not empty. */
  predicate Truthy(o: Option<string>) {
    o.Some? && |o.value| > 0
  }

  /** What React renders for a possibly-undefined string: nothing for
      `undefined`. */
  function ReactText(o: Option<string>): string {
    o.GetOr("")
  }

  const EndpointPrefix := "https://ld.sven.mol.it/"
  const EndpointSuffix := "/sparql"

  /** The address a query on `dataset` is posted to. */
  function Endpoint(dataset: string): (url: string)
    ensures StartsWith(url, EndpointPrefix)
    ensures |url| == |EndpointPrefix| + |dataset| + |EndpointSuffix|
    ensures url[|EndpointPrefix|..|url| - |EndpointSuffix|] == dataset
    ensures url[|url| - |EndpointSuffix|..] == EndpointSuffix
  {
    var url := EndpointPrefix + dataset + EndpointSuffix;
    assert url[..|EndpointPrefix|] == EndpointPrefix;
    assert url[|EndpointPrefix|..|url| - |EndpointSuffix|] == dataset;
    url
  }

  /** Different datasets are queried at different addresses. */
  lemma EndpointInjective(a: string, b: string)
    requires Endpoint(a) == Endpoint(b)
    ensures a == b
  {
    var u := Endpoint(a);
    assert u[|EndpointPrefix|..|u| - |EndpointSuffix|] == a;
  }

  /** The term types whose value the decoder keeps. */
  predicate Kept(t: Term) {
    t.kind == "literal" || t.kind == "uri"
  }

  /** One binding set to one row: the value of every `literal` or `uri` term,
      under its variable name; terms of any other type are left out. */
  function DecodeRow(b: Binding): (row: Row)
    ensures forall k :: k in row <==> k in b && Kept(b[k])
    ensures forall k :: k in row ==> row[k] == b[k].value
  {
    map k | k in b && Kept(b[k]) :: b[k].value
  }

  /** The binding sets of a response to rows: one row per binding set, in
      order, including empty ones. */
  function Decode(bindings: seq<Binding>): (rows: seq<Row>)
    ensures |rows| == |bindings|
    ensures forall i :: 0 <= i < |rows| ==> rows[i] == DecodeRow(bindings[i])
  {
    if |bindings| == 0 then []
    else [DecodeRow(bindings[0])] + Decode(bindings[1..])
  }

  /** A row written back as a binding set of plain literals. */
  function EncodeRow(row: Row): (b: Binding)
    ensures b.Keys == row.Keys
  {
    map k | k in row :: Term("literal", row[k])
  }

  /** Decoding a binding set of literals gives back the row. */
  lemma DecodeEncode(row: Row)
    ensures DecodeRow(EncodeRow(row)) == row
  {
    var r := DecodeRow(EncodeRow(row));
    assert r.Keys == row.Keys;
  }

  /** A variable bound to a term of another type, such as a blank node, reads
      as `undefined` in the row, not as an empty value. */
  lemma DecodeKeepsOnlyKept(b: Binding, k: string)
    requires k in b && !Kept(b[k])
    ensures Get(DecodeRow(b), k) == None
  {
  }
}

=== FILE: seqs.dfy ===
/** Subsequences: a sequence with some elements left out and the rest kept
    in their order, as a filter leaves it. */
module Seqs {
  /** `a` is `b` with some elements left out, the rest in their order. */
  predicate IsSubsequence<T(==)>(a: seq<T>, b: seq<T>)
    decreases |b|
  {
    |a| == 0 || (|b| > 0 && ((a[0] == b[0] && IsSubsequence(a[1..], b[1..])) || IsSubsequence(a, b[1..])))
  }

  /** Leaving elements out never makes a sequence longer. */
  lemma {:induction false} SubsequenceShorter<T>(a: seq<T>, b: seq<T>)
    requires IsSubsequence(a, b)
    ensures |a| <= |b|
    decreases |b|
  {
    if |a| > 0 {
      if a[0] == b[0] && IsSubsequence(a[1..], b[1..]) {
        SubsequenceShorter(a[1..], b[1..]);
      } else {
        SubsequenceShorter(a, b[1..]);
      }
    }
  }

  /** Every element of a subsequence is an element of the sequence. */
  lemma {:induction false} SubsequenceElements<T>(a: seq<T>, b: seq<T>, x: T)
    requires IsSubsequence(a, b) && x in a
    ensures x in b
    decreases |b|
  {
    if a[0] == b[0] && IsSubsequence(a[1..], b[1..]) {
      if x != a[0] {
        assert x in a[1..];
        SubsequenceElements(a[1..], b[1..], x);
      }
    } else {
      SubsequenceElements(a, b[1..], x);
    }
  }
}

=== FILE: strings.dfy ===
/** The JavaScript string operations the front-end uses, with the exact
    first-occurrence and out-of-range behaviour of `String.prototype`. */
module Strings {
  import opened Options

  /** `s.indexOf(c)`: the position of the first `c`, or -1. */
  function IndexOf(s: string, c: char): (i: int)
    ensures -1 <= i < |s|
    ensures i == -1 <==> c !in s
    ensures 0 <= i ==> s[i] == c && c !in s[..i]
  {
    if |s| == 0 then -1
    else if s[0] == c then 0
    else
      var j := IndexOf(s[1..], c);
      if j == -1 then -1
      else
        assert s[..j + 1] == [s[0]] + s[1..][..j];
        j + 1
  }

  /** The first `c` is at `i` when `s[i]` is `c` and no `c` comes before it. */
  lemma IndexOfAt(s: string, c: char, i: nat)
    requires i < |s| && s[i] == c && c !in s[..i]
    ensures IndexOf(s, c) == i
  {
    var j := IndexOf(s, c);
    assert s[..j + 1][j] == c;
    assert s[..i + 1][i] == c;
  }

  /** `s.startsWith(p)`. */
  predicate StartsWith(s: string, p: string) {
    |p| <= |s| && s[..|p|] == p
  }

  /** Appending to a text keeps its prefixes. */
  lemma StartsWithExtended(s: string, p: string, rest: string)
    requires StartsWith(s, p)
    ensures StartsWith(s + rest, p)
  {
    assert (s + rest)[..|p|] == s[..|p|];
  }

  /** `s.split(c)` for a one-character separator: the pieces between the
      separators, in order; a string without `c` is one piece. */
  function Split(s: string, c: char): (pieces: seq<string>)
    ensures |pieces| >= 1
    ensures forall k :: 0 <= k < |pieces| ==> c !in pieces[k]
    decreases |s|
  {
    var i := IndexOf(s, c);
    if i == -1 then [s] else [s[..i]] + Split(s[i + 1..], c)
  }

  /** `pieces.join(c)`, the inverse of `Split`. */
  function Join(pieces: seq<string>, c: char): string
    requires |pieces| >= 1
  {
    if |pieces| == 1 then pieces[0] else pieces[0] + [c] + Join(pieces[1..], c)
  }

  /** Splitting and joining again gives back the original string. */
  lemma {:induction false} JoinSplit(s: string, c: char)
    ensures Join(Split(s, c), c) == s
    decreases |s|
  {
    var i := IndexOf(s, c);
    if i == -1 {
      assert Split(s, c) == [s];
    } else {
      var rest := s[i + 1..];
      var tail := Split(rest, c);
      assert Split(s, c) == [s[..i]] + tail;
      assert Join(tail, c) == rest by {
        JoinSplit(rest, c);
      }
      assert Join([s[..i]] + tail, c) == s[..i] + [c] + Join(tail, c) by {
        JoinCons(s[..i], tail, c);
      }
      assert s == s[..i] + [c] + rest;
    }
  }

  lemma JoinCons(head: string, tail: seq<string>, c: char)
    requires |tail| >= 1
    ensures Join([head] + tail, c) == head + [c] + Join(tail, c)
  {
    assert ([head] + tail)[1..] == tail;
  }

  /** `s.split(c)[n]`, which is `undefined` when there are fewer than n + 1 pieces. */
  function Field(s: string, c: char, n: nat): (r: Option<string>)
    ensures r.Some? ==> c !in r.value
    ensures r == None <==> n >= |Split(s, c)|
  {
    var pieces := Split(s, c);
    if n < |pieces| then Some(pieces[n]) else None
  }

  /** `s.split('#')[1]`: the IRI fragment, the text between the first and the second `#`. */
  function Fragment(iri: string): Option<string> {
    Field(iri, '#', 1)
  }

  /** Field 0 is the text before the first separator, or the whole string. */
  lemma FieldZero(p: string, c: char, rest: string)
    requires c !in p
    ensures Field(p, c, 0) == Some(p)
    ensures Field(p + [c] + rest, c, 0) == Some(p)
  {
    var s := p + [c] + rest;
    assert s[..|p|] == p;
    IndexOfAt(s, c, |p|);
  }

  /** A string with the separator has a field 1. */
  lemma FieldOneExists(s: string, c: char)
    requires c in s
    ensures Field(s, c, 1).Some?
  {
    var i := IndexOf(s, c);
    var tail := Split(s[i + 1..], c);
    assert Split(s, c) == [s[..i]] + tail;
    assert |tail| >= 1;
  }

  /** An IRI has a fragment exactly when it has a `#`. */
  lemma FragmentDefined(iri: string)
    ensures Fragment(iri).Some? <==> '#' in iri
  {
    if '#' in iri {
      FieldOneExists(iri, '#');
    } else {
      FieldOneMissing(iri, '#');
    }
  }

  /** A string without the separator has no field 1. */
  lemma FieldOneMissing(s: string, c: char)
    requires c !in s
    ensures Field(s, c, 1) == None
  {
  }

  /** Field 1 is the text between the first separator and the second one, or
      the end of the string when there is no second one. Together with
      `FieldOneMissing` this determines field 1 for every string. */
  lemma FieldOne(p: string, c: char, t: string, rest: string)
    requires c !in p && c !in t
    ensures Field(p + [c] + t, c, 1) == Some(t)
    ensures Field(p + [c] + t + [c] + rest, c, 1) == Some(t)
  {
    var s1 := p + [c] + t;
    assert s1[..|p|] == p;
    IndexOfAt(s1, c, |p|);
    assert s1[|p| + 1..] == t;
    var s2 := p + [c] + t + [c] + rest;
    assert s2[..|p|] == p;
    IndexOfAt(s2, c, |p|);
    assert s2[|p| + 1..] == t + [c] + rest;
    FieldZero(t, c, rest);
  }

  /** `s.replace(from, to)` with a one-character string pattern: only the first
      occurrence is replaced. */
  function ReplaceFirst(s: string, from: char, to: char): (r: string)
    ensures |r| == |s|
    ensures from !in s ==> r == s
    ensures from in s ==> var i := IndexOf(s, from); r == s[..i] + [to] + s[i + 1..]
  {
    if |s| == 0 then s
    else if s[0] == from then [to] + s[1..]
    else
      var r' := ReplaceFirst(s[1..], from, to);
      assert s == [s[0]] + s[1..];
      [s[0]] + r'
  }

  /** Replacing the first `from` by `to` and then the first `to` by `from`
      restores a string that had no `to` in it. */
  lemma ReplaceFirstRoundTrip(s: string, from: char, to: char)
    requires to !in s
    ensures ReplaceFirst(ReplaceFirst(s, from, to), to, from) == s
  {
    if from in s && from != to {
      var i := IndexOf(s, from);
      var r := s[..i] + [to] + s[i + 1..];
      ReplaceAt(s, from, to, i);
      assert r[i] == to && r[..i] == s[..i] && r[i + 1..] == s[i + 1..];
      ReplaceAt(r, to, from, i);
      Reassemble(s, i);
    }
  }

  /** A string is the text before position `i`, the character at `i`, and
      the text after it. */
  lemma Reassemble(s: string, i: nat)
    requires i < |s|
    ensures s == s[..i] + [s[i]] + s[i + 1..]
  {
  }

  /** Replacing the first `from` when it sits at `i`. */
  lemma ReplaceAt(s: string, from: char, to: char, i: nat)
    requires i < |s| && s[i] == from && from !in s[..i]
    ensures ReplaceFirst(s, from, to) == s[..i] + [to] + s[i + 1..]
  {
    IndexOfAt(s, from, i);
  }

  /** `pad.repeat(n)`: n copies of `pad`, so it starts with `pad` and repeats
      with period `|pad|`. */
  function Repeat(pad: string, n: nat): (r: string)
    ensures |r| == n * |pad|
    ensures n > 0 ==> StartsWith(r, pad)
    ensures forall i :: 0 <= i < |r| - |pad| ==> r[i + |pad|] == r[i]
    ensures |pad| == 1 ==> forall i :: 0 <= i < |r| ==> r[i] == pad[0]
  {
    if n == 0 then ""
    else
      var r' := Repeat(pad, n - 1);
      assert (n - 1) * |pad| + |pad| == n * |pad|;
      assert (pad + r')[..|pad|] == pad;
      pad + r'
  }

  /** `s.substring(0, n)` for n >= 0: the first n characters, or all of them. */
  function Take(s: string, n: nat): (r: string)
    ensures |r| == if n < |s| then n else |s|
    ensures StartsWith(s, r)
  {
    if n < |s| then s[..n] else s
  }

  predicate IsUpperAscii(ch: char) {
    'A' <= ch <= 'Z'
  }

  function LowerChar(ch: char): char {
    if IsUpperAscii(ch) then (ch as int + 32) as char else ch
  }

  /** `s.toLowerCase()` on the ASCII letters. */
  function ToLowerAscii(s: string): (r: string)
    ensures |r| == |s|
    ensures forall i :: 0 <= i < |r| ==> !IsUpperAscii(r[i])
    ensures forall i :: 0 <= i < |r| && !IsUpperAscii(s[i]) ==> r[i] == s[i]
    ensures forall i :: 0 <= i < |r| && IsUpperAscii(s[i]) ==> r[i] as int == s[i] as int + 32
    ensures forall i :: 0 <= i < |r| ==> r[i] == LowerChar(s[i])
  {
    if |s| == 0 then "" else [LowerChar(s[0])] + ToLowerAscii(s[1..])
  }

  /** Lowercasing twice is lowercasing once. */
  lemma ToLowerIdempotent(s: string)
    ensures ToLowerAscii(ToLowerAscii(s)) == ToLowerAscii(s)
  {
  }

  /** The position of the first ASCII upper-case letter, or -1. */
  function FirstUpper(s: string): (i: int)
    ensures -1 <= i < |s|
    ensures i == -1 <==> forall k :: 0 <= k < |s| ==> !IsUpperAscii(s[k])
    ensures 0 <= i ==> IsUpperAscii(s[i]) && forall k :: 0 <= k < i ==> !IsUpperAscii(s[k])
  {
    if |s| == 0 then -1
    else if IsUpperAscii(s[0]) then 0
    else
      var j := FirstUpper(s[1..]);
      if j == -1 then -1 else j + 1
  }

  /** The regex replace that puts a space before an upper-case letter,
      without the `g` flag: the scan stops at the first match. */
  function SpaceBeforeFirstUpper(s: string): string {
    if |s| == 0 then s
    else if IsUpperAscii(s[0]) then " " + s
    else [s[0]] + SpaceBeforeFirstUpper(s[1..])
  }

  /** One space goes before the first upper-case letter, and nothing else
      changes; without one the text is unchanged. */
  lemma SpaceBeforeFirstUpperAt(s: string)
    ensures FirstUpper(s) == -1 ==> SpaceBeforeFirstUpper(s) == s
    ensures FirstUpper(s) >= 0 ==> var i := FirstUpper(s);
      SpaceBeforeFirstUpper(s) == s[..i] + " " + s[i..]
  {
    var i := FirstUpper(s);
    if i == -1 {
      SpaceBeforeUpperAt(s, |s|);
    } else {
      SpaceBeforeUpperAt(s, i);
    }
  }

  /** The scan passes the characters before `i`, none upper-case, and stops
      at `i`: an upper-case letter, or the end. */
  lemma {:induction false} SpaceBeforeUpperAt(s: string, i: nat)
    requires i <= |s|
    requires forall k :: 0 <= k < i ==> !IsUpperAscii(s[k])
    requires i < |s| ==> IsUpperAscii(s[i])
    ensures SpaceBeforeFirstUpper(s) == if i == |s| then s else s[..i] + " " + s[i..]
    decreases i
  {
    if i == 0 {
      assert i < |s| ==> s[..0] + " " + s[0..] == " " + s;
    } else {
      var c, t := s[0], s[1..];
      assert s == [c] + t;
      assert !IsUpperAscii(c);
      assert SpaceBeforeFirstUpper(s) == [c] + SpaceBeforeFirstUpper(t);
      assert i - 1 < |t| ==> IsUpperAscii(t[i - 1]);
      assert forall k :: 0 <= k < i - 1 ==> !IsUpperAscii(t[k]) by {
        assert forall k :: 0 <= k < i - 1 ==> t[k] == s[k + 1];
      }
      SpaceBeforeUpperAt(t, i - 1);
      if i < |s| {
        ConsAround(c, t, i - 1);
      }
    }
  }

  /** Putting a character in front shifts a split point by one. */
  lemma ConsAround(c: char, t: string, j: nat)
    requires j <= |t|
    ensures var s := [c] + t; [c] + (t[..j] + " " + t[j..]) == s[..j + 1] + " " + s[j + 1..]
  {
    var s := [c] + t;
    assert s[..j + 1] == [c] + t[..j];
    assert s[j + 1..] == t[j..];
  }

  /** `ToLowerAscii` works character by character, so it distributes over
      concatenation. */
  lemma {:induction false} ToLowerConcat(a: string, b: string)
    ensures ToLowerAscii(a + b) == ToLowerAscii(a) + ToLowerAscii(b)
    decreases |a|
  {
    if |a| == 0 {
      assert a + b == b;
    } else {
      assert (a + b)[0] == a[0] && (a + b)[1..] == a[1..] + b;
      ToLowerConcat(a[1..], b);
    }
  }
}

=== FILE: types.dfy ===
/** The shapes of src/d.ts: a building feature (`TBuilding`) and a colour
    (`ColorTriple`), with the five utilities whose readings a building carries. */
module Types {
  import opened Options
  import opened Numbers

  /** The five metered utilities, in the order the colour function reads them. */
  datatype Utility = Cold | Electricity | Gas | Heat | Water {

    /** The property that holds the reading on a building. */
    function Name(): string {
      match this
      case Cold => "cold"
      case Electricity => "electricity"
      case Gas => "gas"
      case Heat => "heat"
      case Water => "water"
    }

    /** The letter the statistics query starts the utility's variables with
        (`cAvg`, `cDev`, ...). */
    function Letter(): char {
      match this
      case Cold => 'c'
      case Electricity => 'e'
      case Gas => 'g'
      case Heat => 'h'
      case Water => 'w'
    }
  }

  const Utilities: seq<Utility> := [Cold, Electricity, Gas, Heat, Water]

  /** The position of a utility in `Utilities`. */
  function Position(u: Utility): (i: nat)
    ensures i < |Utilities| && Utilities[i] == u
  {
    match u
    case Cold => 0
    case Electricity => 1
    case Gas => 2
    case Heat => 3
    case Water => 4
  }

  /** The properties of a building feature. A reading is the text of the
      measurement with its unit ("12.5 kWh"); `None` is `undefined`, for a
      variable the query left unbound. `floors` is `None` when `parseInt`
      gave NaN. */
  datatype Properties = Properties(
    name: Option<string>,
    floors: Option<int>,
    cold: Option<string>,
    electricity: Option<string>,
    gas: Option<string>,
    heat: Option<string>,
    water: Option<string>)
  {
    function Reading(u: Utility): Option<string> {
      match u
      case Cold => cold
      case Electricity => electricity
      case Gas => gas
      case Heat => heat
      case Water => water
    }
  }

  /** `TBuilding`: a GeoJSON feature of type "Feature". The geometry is kept as
      the text it is parsed from; its structure is not modelled. */
  datatype Building = Building(geometry: Option<string>, properties: Properties)

  /** `ColorTriple`: the red, green and blue channels, as plain numbers. */
  datatype Rgb = Rgb(r: Num, g: Num, b: Num)
}

=== FILE: util.dfy ===
/** `leftPad` from src/util.ts, and the two-digit zero padding the date and
    hour keys are built with. */
module Util {
  import opened Strings
  import opened Numbers

  /** `leftPad(value, pad, length)`: `pad` repeated `length - |value|` times,
      cut to `length - |value|` characters, in front of `value`. A `value`
      longer than `length` makes `repeat` receive a negative count, which
      throws a RangeError; that is the precondition. */
  function LeftPad(value: string, pad: string, length: int): (r: string)
    requires |value| <= length
    ensures |r| >= |value| && r[|r| - |value|..] == value
    ensures |pad| > 0 ==> |r| == length
    ensures |pad| == 0 || length == |value| ==> r == value
    // The prefix starts with `pad` and repeats it with period |pad| ...
    ensures forall i :: 0 <= i < |pad| && i < |r| - |value| ==> r[i] == pad[i]
    ensures forall i :: 0 <= i < |r| - |value| - |pad| ==> r[i + |pad|] == r[i]
    // ... so a one-character pad fills the whole prefix.
    ensures |pad| == 1 ==> forall i :: 0 <= i < |r| - |value| ==> r[i] == pad[0]
  {
    var diff := length - |value|;
    var repeated := Repeat(pad, diff);
    assert |pad| > 0 ==> diff <= diff * |pad| by {
      if |pad| > 0 {
        MulAtLeast(diff, |pad|);
      }
    }
    var prefix := Take(repeated, diff);
    assert diff > 0 ==> StartsWith(repeated, pad);
    assert (prefix + value)[|prefix|..] == value;
    assert forall i :: 0 <= i < |prefix| ==> (prefix + value)[i] == repeated[i];
    prefix + value
  }

  lemma MulAtLeast(n: nat, k: nat)
    requires k >= 1
    ensures n <= n * k
  {
  }

  /** The decimal text of `n` left-padded with `0` to length 2, as the date
      and hour keys use it: two
      decimal digits whose value is `n`. */
  function ZeroPad2(n: nat): (r: string)
    requires n < 100
    ensures |r| == 2
    ensures forall i :: 0 <= i < 2 ==> IsDecimalDigit(r[i])
    ensures DigitsValue(r, 10) == n
    ensures n >= 10 ==> r == NatToString(n)
  {
    AtMostTwoDigits(n);
    var r := LeftPad(NatToString(n), "0", 2);
    ZeroPad2Value(n, r);
    r
  }

  lemma ZeroPad2Value(n: nat, r: string)
    requires n < 100 && |NatToString(n)| <= 2
    requires r == LeftPad(NatToString(n), "0", 2)
    ensures DigitsValue(r, 10) == n
    ensures forall i :: 0 <= i < 2 ==> IsDecimalDigit(r[i])
  {
    NatToStringValue(n);
    var d := NatToString(n);
    if |d| == 1 {
      assert r == "0" + d;
      assert r[..1] == "0";
      assert DigitsValue(r[..1], 10) == 0;
    }
  }
}

=== FILE: weather.dfy ===
/** The weather panel (src/weather.tsx): the subject the observations are
    looked up under, the filtering and shaping of the result rows, and the
    label each relation is shown with. */
module Weather {
  import opened Options
  import opened Strings
  import opened Seqs
  import opened Numbers
  import opened Util
  import opened Query

  // ---------------------------------------------------------------------
  // The observation subject

  /** The hour text with a `0` put in front when it is one character long. */
  function HourKey(time: string): string {
    if |time| == 1 then "0" + time else time
  }

  /** On the decimal text of an hour the padding gives the same two digits the
      date text carries; longer text is left alone. */
  lemma HourKeyIsZeroPad(h: nat)
    requires h < 100
    ensures HourKey(NatToString(h)) == ZeroPad2(h)
  {
    AtMostTwoDigits(h);
    if h < 10 {
      var r := ZeroPad2(h);
      NatToStringValue(h);
      assert r[..1][..0] == [] && r[..1] == [r[0]];
      assert DigitsValue(r, 10) == DigitValue(r[0]) * 10 + DigitValue(r[1]);
      assert r == "0" + NatToString(h);
    }
  }

  /** The local name of the subject, the date and the hour joined by a dash,
      as written: the
      component is handed the hour as a number, whose `length` is undefined,
      so the padding never applies and the hour goes in unpadded. */
  function SubjectAsWritten(date: string, hour: nat): string {
    date + "-" + NatToString(hour)
  }

  /** The local name of the subject with the hour passed as text, as the
      padding intends: the date, a dash and the two-digit hour. */
  function Subject(date: string, hour: nat): (s: string)
    requires hour < 100
    ensures s == date + "-" + ZeroPad2(hour)
    ensures |s| == |date| + 3
  {
    HourKeyIsZeroPad(hour);
    date + "-" + HourKey(NatToString(hour))
  }

  /** As written, an hour below 10 is one digit short: hour 5 gives
      `2023-01-01-5` where `2023-01-01-05` is meant. */
  lemma SubjectAsWrittenIsUnpadded(date: string, hour: nat)
    requires hour < 10
    ensures |SubjectAsWritten(date, hour)| == |date| + 2
    ensures SubjectAsWritten(date, hour) != Subject(date, hour)
  {
    AtMostTwoDigits(hour);
  }

  lemma SubjectExample()
    ensures SubjectAsWritten("2023-01-01", 5) == "2023-01-01-5"
    ensures Subject("2023-01-01", 5) == "2023-01-01-05"
  {
    HourKeyIsZeroPad(5);
  }

  /** From 10 on both agree. */
  lemma SubjectAsWrittenFromTen(date: string, hour: nat)
    requires 10 <= hour < 100
    ensures SubjectAsWritten(date, hour) == Subject(date, hour)
  {
  }

  /** With padding, different hours of a day give different subjects. */
  lemma SubjectInjective(date: string, h1: nat, h2: nat)
    requires h1 < 100 && h2 < 100
    requires Subject(date, h1) == Subject(date, h2)
    ensures h1 == h2
  {
    var s := Subject(date, h1);
    assert s[|date| + 1..] == ZeroPad2(h1);
    assert Subject(date, h2)[|date| + 1..] == ZeroPad2(h2);
  }

  // ---------------------------------------------------------------------
  // Result rows

  /** The site every kept relation lives under. */
  const SiteBase := "http://ld.sven.mol.it/"

  /** The filter's test on one row: `rendered` truthy and `relation` under
      the site. `None` when it throws: `rendered` is set but `relation` is
      not, and `startsWith` is called on `undefined`. */
  function Keeps(row: Row): (k: Option<bool>)
    ensures k.None? <==> Truthy(Get(row, "rendered")) && "relation" !in row
    ensures k == Some(true) <==>
      Truthy(Get(row, "rendered")) && "relation" in row && StartsWith(row["relation"], SiteBase)
  {
    if !Truthy(Get(row, "rendered")) then Some(false)
    else
      match Get(row, "relation")
      case None => None
      case Some(r) => Some(StartsWith(r, SiteBase))
  }

  /** The filter over the result: the kept rows in their order, or `None`
      once the test throws. */
  function FilterRows(rows: seq<Row>): (r: Option<seq<Row>>)
    ensures r.None? <==> exists i :: 0 <= i < |rows| && Keeps(rows[i]).None?
    ensures r.Some? ==> IsSubsequence(r.value, rows)
    ensures r.Some? ==> forall x :: x in r.value ==> Keeps(x) == Some(true)
    ensures r.Some? ==> forall i :: 0 <= i < |rows| && Keeps(rows[i]) == Some(true) ==> rows[i] in r.value
  {
    if |rows| == 0 then Some([])
    else
      match Keeps(rows[0])
      case None => None
      case Some(k) =>
        match FilterRows(rows[1..])
        case None =>
          assert forall i :: 0 <= i < |rows| - 1 ==> rows[1..][i] == rows[i + 1];
          None
        case Some(t) =>
          assert forall i :: 1 <= i < |rows| ==> rows[i] == rows[1..][i - 1];
          if k then Some([rows[0]] + t) else Some(t)
  }

  /** The positions of `rows` from `lo` on whose row passes the test. */
  function PassingFrom(rows: seq<Row>, lo: nat): set<int>
    requires lo <= |rows|
  {
    set i | lo <= i < |rows| && Keeps(rows[i]) == Some(true)
  }

  lemma {:induction false} FilterRowsCountFrom(rows: seq<Row>, lo: nat)
    requires lo <= |rows| && FilterRows(rows[lo..]).Some?
    ensures |FilterRows(rows[lo..]).value| == |PassingFrom(rows, lo)|
    decreases |rows| - lo
  {
    if lo == |rows| {
      assert PassingFrom(rows, lo) == {};
    } else {
      var r := rows[lo..];
      assert r[0] == rows[lo] && r[1..] == rows[lo + 1..];
      FilterRowsCountFrom(rows, lo + 1);
      if Keeps(rows[lo]) == Some(true) {
        assert PassingFrom(rows, lo) == PassingFrom(rows, lo + 1) + {lo};
      } else {
        assert PassingFrom(rows, lo) == PassingFrom(rows, lo + 1);
      }
    }
  }

  /** The filter keeps every passing row, repeated rows included: it returns
      as many rows as there are positions whose row passes. With the
      subsequence and membership clauses of `FilterRows`, that makes the
      result exactly the passing rows in their order. */
  lemma FilterRowsCount(rows: seq<Row>)
    requires FilterRows(rows).Some?
    ensures |FilterRows(rows).value| == |set i | 0 <= i < |rows| && Keeps(rows[i]) == Some(true)|
  {
    assert rows[0..] == rows;
    FilterRowsCountFrom(rows, 0);
  }

  /** One shaped row: the relation's fragment (undefined without a `#`), and
      the rendered value, replaced by its fragment when it has a `#`. */
  datatype Observation = Observation(relation: Option<string>, rendered: string)

  /** The shaping applied to one kept row. */
  function Shape(relation: string, rendered: string): (o: Observation)
    ensures o.relation == Fragment(relation)
    ensures o.relation.Some? <==> '#' in relation
    ensures '#' !in o.rendered
    ensures '#' !in rendered ==> o.rendered == rendered
    ensures '#' in rendered ==> Fragment(rendered).Some? && o.rendered == Fragment(rendered).value
  {
    FragmentDefined(relation);
    FragmentDefined(rendered);
    if '#' !in rendered then Observation(Fragment(relation), rendered)
    else Observation(Fragment(relation), Fragment(rendered).value)
  }

  /** The rows the panel shows, or `Keep` when the callback throws and the
      panel stays as it was. */
  function Process(rows: seq<Row>): (u: Update<seq<Observation>>)
    ensures u.Keep? <==> exists i :: 0 <= i < |rows| && Keeps(rows[i]).None?
    ensures u.Set? ==> |u.value| <= |rows|
    ensures u.Set? ==> forall i :: 0 <= i < |u.value| ==> '#' !in u.value[i].rendered
    ensures u.Set? ==> FilterRows(rows).Some? && |u.value| == |FilterRows(rows).value|
    ensures u.Set? ==> forall i :: 0 <= i < |u.value| ==>
      var row := FilterRows(rows).value[i];
      "relation" in row && "rendered" in row && u.value[i] == Shape(row["relation"], row["rendered"])
  {
    match FilterRows(rows)
    case None => Keep
    case Some(kept) =>
      SubsequenceShorter(kept, rows);
      assert forall i :: 0 <= i < |kept| ==> kept[i] in kept;
      Set(seq(|kept|, i requires 0 <= i < |kept| => Shape(kept[i]["relation"], kept[i]["rendered"])))
  }

  /** The panel's state after a response: the shaped rows, or what it showed
      before when the callback threw. The state is not reset when the date
      changes, so earlier rows stay until new ones arrive. */
  function Receive(data: Option<seq<Observation>>, rows: seq<Row>): (d: Option<seq<Observation>>)
    ensures Process(rows).Keep? ==> d == data
    ensures Process(rows).Set? ==> d == Some(Process(rows).value)
  {
    match Process(rows)
    case Set(obs) => Some(obs)
    case Keep => data
  }

  // ---------------------------------------------------------------------
  // Labels

  /** The label of a relation: a space inserted before its first upper-case
      letter, then the whole text lower-cased. */
  function Label(relation: string): (l: string)
    ensures forall i :: 0 <= i < |l| ==> !IsUpperAscii(l[i])
    ensures |l| == |relation| + (if FirstUpper(relation) == -1 then 0 else 1)
  {
    SpaceBeforeFirstUpperAt(relation);
    ToLowerAscii(SpaceBeforeFirstUpper(relation))
  }

  /** The label is the lower-cased relation with one space before the
      position of its first upper-case letter. */
  lemma LabelSplitsAtFirstUpper(relation: string)
    requires FirstUpper(relation) >= 0
    ensures var i := FirstUpper(relation);
      Label(relation) == ToLowerAscii(relation[..i]) + " " + ToLowerAscii(relation[i..])
  {
    var i := FirstUpper(relation);
    var head, tail := relation[..i], relation[i..];
    assert Label(relation) == ToLowerAscii(head + " " + tail) by {
      SpaceBeforeFirstUpperAt(relation);
    }
    assert ToLowerAscii(head + " " + tail) == ToLowerAscii(head + " ") + ToLowerAscii(tail) by {
      ToLowerConcat(head + " ", tail);
    }
    assert ToLowerAscii(head + " ") == ToLowerAscii(head) + " " by {
      ToLowerConcat(head, " ");
      assert ToLowerAscii(" ") == " ";
    }
  }

  /** A relation without upper-case letters is its own label. */
  lemma LabelOfLowerCase(relation: string)
    requires forall i :: 0 <= i < |relation| ==> !IsUpperAscii(relation[i])
    ensures Label(relation) == relation
  {
    assert SpaceBeforeFirstUpper(relation) == relation by {
      SpaceBeforeFirstUpperAt(relation);
    }
    var l := ToLowerAscii(relation);
    assert forall i :: 0 <= i < |l| ==> l[i] == relation[i];
  }

  /** Labelling a label changes nothing. */
  lemma LabelIdempotent(relation: string)
    ensures Label(Label(relation)) == Label(relation)
  {
    LabelOfLowerCase(Label(relation));
  }

  /** What the panel shows. */
  datatype View = Loading | Table(lines: seq<(string, string)>) | RenderFailure

  /** `Loading` until data arrives; then one line per observation, its label
      and rendered value. An observation without a relation makes `replace`
      throw while rendering. */
  function ViewOf(data: Option<seq<Observation>>): (v: View)
    ensures v.Loading? <==> data.None?
    ensures v.RenderFailure? <==> data.Some? && exists i :: 0 <= i < |data.value| && data.value[i].relation.None?
    ensures v.Table? ==> |v.lines| == |data.value|
    ensures v.Table? ==> forall i :: 0 <= i < |v.lines| ==>
      v.lines[i] == (Label(data.value[i].relation.value), data.value[i].rendered)
  {
    match data
    case None => Loading
    case Some(obs) =>
      if forall i :: 0 <= i < |obs| ==> obs[i].relation.Some? then
        Table(seq(|obs|, i requires 0 <= i < |obs| => (Label(obs[i].relation.value), obs[i].rendered)))
      else RenderFailure
  }

  /** When every relation IRI has a fragment, the first response is shown as
      a table. */
  lemma ShownRowsHaveFragments(rows: seq<Row>)
    requires Process(rows).Set?
    requires forall i :: 0 <= i < |rows| && "relation" in rows[i] ==> '#' in rows[i]["relation"]
    ensures ViewOf(Receive(None, rows)).Table?
  {
    var kept := FilterRows(rows).value;
    forall i | 0 <= i < |kept| ensures "relation" in kept[i] && '#' in kept[i]["relation"] {
      assert kept[i] in kept;
      assert Keeps(kept[i]) == Some(true);
      SubsequenceElements(kept, rows, kept[i]);
    }
  }
}
